=== FILE: README.md ===
# UTM builder — a Dafny model

This project models the logic of the UTM link builder, a single-page tool.
The tool:

- takes a destination URL and five campaign fields (source, medium, campaign,
  term, content);
- validates the required ones;
- appends `utm_*` query parameters with sanitized values;
- keeps a ten-entry history of generated links, newest first, one entry per
  URL;
- can load a history entry back into the form, or export the history as CSV.

All of that logic lives in the `Home` component of `app/page.tsx`. The model
recasts it as pure functions over immutable data. The page state becomes a
`Page` value that each action takes and returns.

Modules, one per concept:

- `Optional`: the `Option` type, standing for JavaScript's `null` and for
  operations that throw.
- `Sanitize`: `sanitizeParam` and its four steps.
  - `toLowerCase` is modelled exactly where it matters for the result.
  - `trim` and the regular expression `\s` are modelled exactly.
  - The `[^a-z0-9_-]` deletion is modelled exactly.
- `Templates`: the eight quick-fill templates.
- `SearchParams`: the query of a URL as the ordered list of name–value pairs
  of a `URLSearchParams` object. Its `get` and `set` follow section 6.2 of the
  WHATWG URL Standard.
- `Urls`: the parsed-URL record and the rule that adds "https://".
  - The record holds the three parts the builder reads: the `origin`
    getter's value, the path and the query. For a scheme other than http
    and https, the origin is "null".
  - It also holds the parts the builder never reads but the serialization
    writes: the scheme, host and port as written, the credentials and the
    fragment.
  - URL parsing is a parameter `parse: string -> Option<Url>` (none where
    `new URL` throws).
  - Serialization is a parameter `serialize: Url -> string`.
  - `ReadsBack(parse, serialize, u)` (parsing the serialization of `u` gives
    `u`) is the only general assumption made about them. It is assumed for
    the URLs a lemma concerns, never for all URLs.
  - The worked example `Builder.GenerateExample` also fixes how the one
    string "https://example.com" parses.
- `History`: the history update of `generateUrl`.
- `Builder`: validation, assembly of the query, and `generateUrl` as a whole.
- `Export`: `loadFromHistory` and the text `exportHistory` builds.

## Model

| member | source | states |
|---|---|---|
| Sanitize.SanitizeParam | app/page.tsx:64-70 | whatever the input, every character of the result is in `[a-z0-9_-]` |
| Sanitize.SanitizeIdempotent | app/page.tsx:64-70 | sanitizing a sanitized value changes nothing |
| Sanitize.SanitizeFixesTokens | app/page.tsx:64-70 | a string over `[a-z0-9_-]` comes out unchanged |
| Sanitize.SanitizeLowersToToken | app/page.tsx:64-70 | a string whose lower case is already a token sanitizes to that lower case |
| Sanitize.SanitizeExample | app/page.tsx:64-70 | "Summer Sale!" sanitizes to "summer_sale" |
| Sanitize.SanitizeGoogle | app/page.tsx:64-70 | "Google" sanitizes to "google" |
| Sanitize.SanitizeCpc | app/page.tsx:64-70 | "CPC" sanitizes to "cpc" |
| Sanitize.SanitizeEmpty | app/page.tsx:64-70 | the empty string sanitizes to the empty string |
| Sanitize.ToLower | app/page.tsx:66 | no contract; its facts are in `Sanitize.ToLowerFixesTokens`, `Sanitize.ToLowerAppend`, `Sanitize.ToLowerWord` and `Sanitize.LowerExample` |
| Sanitize.Trim | app/page.tsx:67 | no contract; its facts are in `Sanitize.TrimIsSlice`, `Sanitize.TrimStartSpec` and `Sanitize.TrimEndSpec` |
| Sanitize.CollapseSpaces | app/page.tsx:68 | no contract; its facts are in `Sanitize.CollapseRun`, `Sanitize.CollapseFixesSpaceFree`, `Sanitize.CollapseRemovesSpaces` and `Sanitize.CollapseNoSpacePrefix` |
| Sanitize.StripDisallowed | app/page.tsx:69 | no contract; its facts are in `Sanitize.StripYieldsToken`, `Sanitize.StripKeepsTokenChars`, `Sanitize.StripFixesTokens` and `Sanitize.StripAppend` |
| Sanitize.ToLowerFixesTokens | app/page.tsx:66 | lower-casing leaves a token unchanged |
| Sanitize.ToLowerWord | app/page.tsx:66 | a capital A–Z followed by a token lower-cases to the matching a–z followed by the same token |
| Sanitize.ToLowerAppend | app/page.tsx:66 | lower-casing works character by character: it distributes over concatenation |
| Sanitize.TrimIsSlice | app/page.tsx:67 | `trim` keeps one contiguous slice of the input, whose ends are not white space, and removes only white space on either side of it |
| Sanitize.TrimStartSpec | app/page.tsx:67 | the leading part `trim` drops is all white space, and what remains does not start with white space |
| Sanitize.TrimEndSpec | app/page.tsx:67 | the trailing part `trim` drops is all white space, and what remains does not end with white space |
| Sanitize.CollapseRun | app/page.tsx:68 | a whole run of white space, however long, becomes one `_`, and what precedes it is untouched |
| Sanitize.TrimStartRun | app/page.tsx:67-68 | dropping leading white space removes exactly a whole white-space run |
| Sanitize.CollapseRemovesSpaces | app/page.tsx:68 | no white space survives the replacement of white-space runs by `_` |
| Sanitize.CollapseFixesSpaceFree | app/page.tsx:68 | the run replacement leaves a string without white space unchanged |
| Sanitize.CollapseNoSpacePrefix | app/page.tsx:68 | a white-space-free prefix passes through the run replacement untouched |
| Sanitize.StripYieldsToken | app/page.tsx:69 | after the deletion, only characters of `[a-z0-9_-]` remain |
| Sanitize.StripKeepsTokenChars | app/page.tsx:69 | the deletion keeps every occurrence of every allowed character: the count of each allowed character is unchanged |
| Sanitize.StripFixesTokens | app/page.tsx:69 | the deletion leaves a token unchanged |
| Sanitize.StripAppend | app/page.tsx:69 | the deletion distributes over concatenation |
| Templates.All | app/page.tsx:19-28 | no contract; the eight templates in order; their facts are in `Templates.TemplatesAreFixedPoints`, `Templates.SourcesAreTokens` and `Templates.MediaAreTokens` |
| Templates.TemplatesAreFixedPoints | app/page.tsx:19-28 | the source and the medium of every template are fixed points of `sanitizeParam`, so a template's values reach the URL verbatim |
| Templates.SourcesAreTokens | app/page.tsx:20-27 | every template source is over `[a-z0-9_-]` |
| Templates.MediaAreTokens | app/page.tsx:20-27 | every template medium is over `[a-z0-9_-]` |
| Urls.WithScheme | app/page.tsx:113-116 | the string handed to the parser starts with "http" and ends with the input; it equals the input exactly when the input already starts with the literal "http" |
| Urls.WithSchemeIdempotent | app/page.tsx:113-116 | applying the prefix rule twice is applying it once |
| Builder.Message | app/page.tsx:91-107 | no contract; the five German messages; `Builder.Validate` states which error each field gets |
| Builder.ValidUrl | app/page.tsx:54-62 | no contract; `Builder.Validate` states that the destination has an error exactly when it fails this check |
| Builder.Validate | app/page.tsx:89-107 | each of source, medium and campaign has the "required" error exactly when it is empty; the URL has "required" exactly when empty and "invalid" exactly when non-empty and the prefixed string does not parse |
| Builder.ValidateIsPerField | app/page.tsx:91-107 | the checks are independent: a field's error depends on that field's text alone |
| Builder.ValidateEmptyIff | app/page.tsx:91-111 | there are no errors exactly when the three required fields are non-empty and the destination is valid |
| Builder.OnlySourceMissing | app/page.tsx:97-99 | an empty source with everything else valid gives exactly one error, on the source |
| Builder.SetIfPresent | app/page.tsx:123-128 | an optional name is set to the sanitized value when the raw field is non-empty; otherwise the query is unchanged; other names are unaffected either way |
| Builder.AssembleQuery | app/page.tsx:119-128 | no contract; its facts are in `Builder.AssembleQuerySpec` and `Builder.AssembleQueryOccurrences` |
| Builder.Assemble | app/page.tsx:118-128 | no contract; its facts are in `Builder.AssembleSpec` |
| Builder.AssembleSpec | app/page.tsx:118-128 | every part but the query is kept; each required UTM name, and each optional one whose raw field is non-empty, occurs exactly once; `get` of each required UTM name gives the sanitized field; `utm_term` and `utm_content` give the sanitized field when the raw field is non-empty and keep the destination's own value otherwise; the pairs of every non-UTM name are kept in order |
| Builder.AssembleQuerySpec | app/page.tsx:119-128 | the same facts about the query alone: each later `set` leaves the earlier names and all non-UTM pairs alone |
| Builder.AssembleQueryOccurrences | app/page.tsx:119-128 | each name that was set occurs exactly once, since every `set` removes that name's other pairs; an optional name left unset occurs as often as in the destination |
| Builder.OptionalPairsIffFilled | app/page.tsx:123-128 | on a destination without UTM pairs, `utm_term` (`utm_content`) is present exactly when the raw field is non-empty |
| Builder.AssembleWithoutQuery | app/page.tsx:118-121 | on a destination without a query and with empty optional fields, the query is exactly the three required pairs in the order they are set |
| Builder.GenerateUrl | app/page.tsx:88-140 | errors are always replaced by the validation result; with errors, the generated URL and the history are unchanged; without errors, the prefixed destination parses, the generated URL is the serialized assembly, and the history records it at time `now` |
| Builder.GenerateKeepsHistoryInvariant | app/page.tsx:130-137 | generating keeps the history within ten entries and free of duplicate URLs, with the new URL first after a success |
| Builder.GenerateKeepsDistinctDestinations | app/page.tsx:118-137 | two destinations that differ outside their query (scheme, host, path, credentials or fragment) give different generated URLs, and generating from the second keeps the first one's entry right behind the new one |
| Builder.GenerateWithoutQuery | app/page.tsx:109-131 | valid fields on a destination without a query produce the serialization of origin, path and the three required pairs |
| Builder.GenerateExample | app/page.tsx:88-131 | "example.com", "Google", "CPC", "Summer Sale!" produce https://example.com with `utm_source=google`, `utm_medium=cpc` and `utm_campaign=summer_sale`, in that order |
| SearchParams.Set | app/page.tsx:119-128 | after `set`, `get` of the name gives the value, exactly one pair has the name, and the pairs of all other names are unchanged and in order |
| SearchParams.SetReplacesFirst | app/page.tsx:119-128 | when the name occurs, `set` replaces its first pair in place and removes the later ones |
| SearchParams.ReplaceFirstShape | app/page.tsx:119-128 | replacing the first pair of a name keeps everything before it, puts the new pair in its place and removes the later pairs of that name |
| SearchParams.ReplaceFirstSpec | app/page.tsx:119-128 | replacing the first pair makes `get` give the new value and leaves the pairs of the other names as they were |
| SearchParams.SetAppendsWhenAbsent | app/page.tsx:119-128 | when the name does not occur, `set` appends the pair at the end |
| SearchParams.SetKeepsOtherNames | app/page.tsx:119-128 | `set` never changes `get` of another name |
| SearchParams.SetKeepsOutside | app/page.tsx:119-128 | `set` of a name in a set of names keeps the pairs whose names are outside that set, in order |
| SearchParams.SetOccurrences | app/page.tsx:119-128 | after `set`, exactly one pair has the name, and every other name occurs as often as before |
| SearchParams.WithoutRemovesOccurrences | app/page.tsx:119-128 | removing a name drops exactly its occurrences and no other pair |
| SearchParams.WithoutKeepsOccurrences | app/page.tsx:119-128 | removing one name leaves the number of pairs of every other name unchanged |
| SearchParams.Get | app/page.tsx:177-181 | no contract; its facts are in `SearchParams.GetIsFirstMatch` and `SearchParams.GetNoneIffAbsent` |
| SearchParams.GetIsFirstMatch | app/page.tsx:177-181 | `get` gives the value of the first pair with the name and of no earlier one |
| SearchParams.GetNoneIffAbsent | app/page.tsx:177-181 | `get` gives `null` exactly when no pair has the name |
| SearchParams.GetWithout | app/page.tsx:177-181 | removing the pairs of one name does not change `get` of another |
| SearchParams.GetAppendAbsent | app/page.tsx:119-128 | after appending a pair with a fresh name, `get` finds it |
| SearchParams.Without | app/page.tsx:119-128 | after removing every pair of a name, the name is absent and the list is no longer |
| SearchParams.WithoutAppend | app/page.tsx:119-128 | removing a name distributes over concatenation |
| SearchParams.WithoutAbsent | app/page.tsx:119-128 | removing a name that does not occur changes nothing |
| SearchParams.WithoutIdempotent | app/page.tsx:119-128 | removing a name twice is removing it once |
| SearchParams.Outside | app/page.tsx:119-128 | the pairs whose names are outside a given set: none of them has a name from the set |
| SearchParams.OutsideWithout | app/page.tsx:119-128 | removing a name from the set leaves the pairs outside the set unchanged |
| History.DropUrl | app/page.tsx:136 | the filtered history is no longer and has no entry with the URL |
| History.Record | app/page.tsx:134-137 | the new entry `{url, now}` is first; at most ten entries; no later entry has the URL; the rest is an order-preserving subsequence of the old history; a duplicate-free history stays duplicate-free |
| History.RecordKeepsFirstSurvivors | app/page.tsx:134-137 | behind the new entry come the first survivors of the filter: all of them when there are at most nine, the first nine otherwise |
| History.RecordKeepsOtherHead | app/page.tsx:134-137 | recording a URL other than the head's keeps the old head right behind the new entry |
| History.RecordNewUrl | app/page.tsx:134-137 | a URL not in the history goes in front of the nine most recent entries |
| History.RecordPresentUrl | app/page.tsx:134-137 | a URL already present in a duplicate-free history of at most ten entries moves to the front without changing the length |
| History.RecordTwice | app/page.tsx:134-137 | recording the same URL twice from an empty history leaves one entry with the later timestamp |
| History.DropUrlCounts | app/page.tsx:136 | on any history, duplicates included, the filter removes every copy of every entry with the URL and keeps every copy of every other entry |
| History.DropUrlAppend | app/page.tsx:136 | the filter works entry by entry: it distributes over concatenation |
| History.DropUrlRepeated | app/page.tsx:136 | an entry stored twice loses both copies, and a different entry after it stays |
| History.DropUrlIsSubsequence | app/page.tsx:136 | the filter keeps the remaining entries in their order |
| History.DropUrlKeepsEntries | app/page.tsx:136 | the filter adds nothing: every entry it returns was in the old history |
| History.DropUrlKeepsNoDuplicates | app/page.tsx:136 | the filter keeps a duplicate-free history duplicate-free |
| History.DropUrlAbsent | app/page.tsx:136 | filtering a URL that is not present changes nothing |
| History.DropUrlPresent | app/page.tsx:136 | filtering a URL present once in a duplicate-free history removes exactly one entry |
| History.PrefixIsSubsequence | app/page.tsx:136 | a prefix of an order-preserving subsequence is one too, so the `slice(0, 9)` cut keeps that shape |
| Export.LoadFromHistory | app/page.tsx:172-188 | when the string parses, the form takes the decomposed fields and the string becomes the generated URL; when it does not, the page is unchanged; errors and history are never touched |
| Export.Decompose | app/page.tsx:175-182 | no contract; its facts are in `Export.LoadAfterGenerate` and `Export.DecomposeIgnoresOtherPairs` |
| Export.DecomposeIgnoresOtherPairs | app/page.tsx:175-182 | pairs whose names are not UTM names do not affect the loaded fields |
| Export.GetAppendOthers | app/page.tsx:177-181 | appending pairs of other names does not change `get` |
| Export.LoadAfterGenerate | app/page.tsx:118-131 | when the parser reads back the URL it was given, loading a successfully generated URL gives the destination's origin and path, the sanitized required fields, and each optional field sanitized when it was filled, or the destination's own value otherwise |
| Export.LoadAfterGenerateClean | app/page.tsx:172-182 | for a destination without `utm_term` or `utm_content` pairs, the load gives back exactly the sanitized fields |
| Export.LineFor | app/page.tsx:196 | no contract; its facts are in `Export.LineForAbsentNames` and `Export.AssembledLine` |
| Export.LineText | app/page.tsx:196 | no contract; its facts are in `Export.JoinLine` and `Export.TermInLine` |
| Export.LineForAbsentNames | app/page.tsx:196 | a missing required UTM name shows as the text "null" in its CSV cell; a missing optional one shows as an empty cell |
| Export.CsvRow | app/page.tsx:193-200 | an entry yields a row exactly when its URL parses and its timestamp is a valid `Date` |
| Export.Rows | app/page.tsx:191-200 | there are no more rows than entries, and exactly as many when every entry is exportable |
| Export.RowsAppend | app/page.tsx:193-200 | each entry contributes its own row or none, in history order |
| Export.RowsSingle | app/page.tsx:193-200 | a single entry contributes its row exactly when it is exportable |
| Export.SplitJoin | app/page.tsx:201 | splitting newline-joined lines that contain no newline gives the lines back |
| Export.ExportCsv | app/page.tsx:190-201 | no contract; its facts are in `Export.ExportLines` |
| Export.ExportLines | app/page.tsx:190-201 | the export reads back as the header line followed by one line per exportable entry, in history order, when no row holds a newline |
| Export.RowCanHoldNewline | app/page.tsx:190-201 | a destination whose kept `utm_term` value holds a newline yields a Term cell, and a row, containing that newline |
| Export.TermInLine | app/page.tsx:196 | every character of the Term cell appears in the row text |
| Export.JoinLine | app/page.tsx:196 | the row is the seven quoted cells in column order, separated by commas |
| Export.FirstRow | app/page.tsx:193-200 | a history whose first entry is exportable has that entry's row first |
| Export.AssembledLine | app/page.tsx:196 | in the row of an assembled URL, the source, medium and campaign cells (and filled term and content) are the sanitized fields |
| Export.ExportAfterGenerate | app/page.tsx:130-137 | after a successful generation at a valid time, and when the parser reads back the generated URL, the first CSV row is the new entry's row |

## Behaviour worth knowing

- An empty destination gets "URL ist erforderlich"; a non-empty one that
  does not parse gets "Bitte gib eine gültige URL ein" (`Builder.Validate`).
- A failed validation leaves the previously generated URL in place
  (`GenerateUrl`). The code does not clear it.
- In the CSV, an absent `utm_source`, `utm_medium` or `utm_campaign` is
  written as the text "null", because those three have no `|| ''` fallback.
- A history entry is dropped from the CSV not only when its URL does not
  parse, but also when its timestamp is beyond ±8.64e15 ms. At that point
  `toISOString` throws inside the same `try`.
- The stored history is read with an unguarded `JSON.parse`, so malformed
  data throws instead of giving an empty history. That path is not modelled
  (see below). Since the stored list need not be free of duplicate URLs,
  the history filter is stated for any list (`History.DropUrlCounts`).
- A destination whose scheme starts with "http" but is neither http nor
  https, such as `httpx://a.com/p`, passes the scheme rule unprefixed. Its
  origin is then "null", so loading its generated URL back puts "null/p"
  into the destination field (`Export.Decompose`). Its generated URL still
  keeps its scheme and host (`Builder.GenerateKeepsDistinctDestinations`).
- `get` returns decoded text, so a CSV cell can hold a raw newline. An
  example is a destination carrying `utm_term=a%0Ab` with the term field
  left empty (`Export.RowCanHoldNewline`). Such a row spans two lines of
  the export.

## Left out

- Rendering (JSX), the toast and its timers, clipboard writes, the
  "copied" flag, and the five-entry display slice of the history: these are
  presentation or asynchronous platform calls.
- `handleChange` (app/page.tsx:72-77) stores the typed value and clears
  that field's error. `applyTemplate` (app/page.tsx:79-86) copies a
  template's source and medium into the form and shows a toast. `clearForm`
  (app/page.tsx:159-170) empties all six fields, the generated URL and the
  errors. These are direct assignments to the page state, made in response
  to UI events; they are left out as form plumbing. Only the template
  values themselves are modelled (`Templates.All`).
- `localStorage` reading and writing, and JSON (de)serialization of the
  history: this is browser storage I/O. As a result, the unguarded
  `JSON.parse` on malformed data is not modelled.
- The CSV download (Blob, object URL, anchor click): this is browser I/O.
  The model stops at the CSV text, `Export.ExportCsv`.
- `Date.now()` is the parameter `now`. `toISOString` is the parameter
  `iso`. Only the range check that makes it throw is modelled.
- Timestamps are integers. The fractional and non-finite numbers a
  JavaScript `number` can hold are not modelled.
- WHATWG URL parsing, serialization and percent-encoding: these are the
  parameters `parse` and `serialize`. The written scheme and host, the
  credentials and the fragment are kept as opaque text in `Url`. Their
  inner structure (scheme against host and port, username against password,
  percent-encoding) is not modelled.
- Sanitize.LowerChar: models `toLowerCase` only for A–Z, U+0130 and U+212A. It
  leaves every other character unchanged. Every character whose real lower
  case differs would still end up outside the token alphabet and not white
  space, so `SanitizeParam` gives the same result. The intermediate string
  differs.
- Strings are sequences of Unicode scalar values. Lone UTF-16 surrogates,
  which a JavaScript string may hold, are not modelled.
- Export.ExportAfterGenerate: states the first row only. The rows of the
  older entries follow from `Export.RowsAppend`.
- Export.ExportLines: takes as a hypothesis that no row contains a newline.
  The hypothesis does not always hold. A `utm_term` or `utm_content` value
  kept from the destination is decoded text and may hold a newline
  (`Export.RowCanHoldNewline`); that entry's row then spans more than one
  line, and the export is not one line per entry.

=== FILE: builder.dfy ===
/** The form of the UTM builder and its "generate" action: the four required
    fields are validated independently, and only when all pass is the
    destination parsed, given its `utm_*` query pairs, serialized, and
    recorded in the history. */
module Builder {
  import opened Optional
  import opened Sanitize
  import opened SearchParams
  import opened Urls
  import opened History

  /** The six form fields, as typed. */
  datatype Fields = Fields(
    url: string, source: string, medium: string, campaign: string, term: string, content: string)

  /** The fields that can carry a validation error. */
  datatype Field = UrlField | SourceField | MediumField | CampaignField

  datatype FieldError = UrlRequired | UrlInvalid | SourceRequired | MediumRequired | CampaignRequired

  /** The message the page shows next to the field. */
  function Message(e: FieldError): string {
    match e
    case UrlRequired => "URL ist erforderlich"
    case UrlInvalid => "Bitte gib eine gültige URL ein"
    case SourceRequired => "Source ist erforderlich"
    case MediumRequired => "Medium ist erforderlich"
    case CampaignRequired => "Campaign ist erforderlich"
  }

  type Errors = map<Field, FieldError>

  /** The state of the page that the actions read and write. */
  datatype Page = Page(params: Fields, errors: Errors, generatedUrl: string, history: seq<Entry>)

  /** The five query names the builder sets. */
  const UtmNames: set<string> := {"utm_source", "utm_medium", "utm_campaign", "utm_term", "utm_content"}

  /** `validateUrl`: the destination is non-empty and parses once the scheme
      rule has been applied. */
  predicate ValidUrl(parse: Parser, url: string) {
    url != "" && parse(WithScheme(url)).Some?
  }

  /** The errors `generateUrl` records: each required field is checked on its
      own, an empty destination is "required" and a non-empty one that does
      not parse is "invalid". */
  function Validate(parse: Parser, p: Fields): (e: Errors)
    ensures (UrlField in e && e[UrlField] == UrlRequired) <==> p.url == ""
    ensures (UrlField in e && e[UrlField] == UrlInvalid) <==> p.url != "" && parse(WithScheme(p.url)).None?
    ensures UrlField in e <==> !ValidUrl(parse, p.url)
    ensures SourceField in e <==> p.source == ""
    ensures MediumField in e <==> p.medium == ""
    ensures CampaignField in e <==> p.campaign == ""
    ensures SourceField in e ==> e[SourceField] == SourceRequired
    ensures MediumField in e ==> e[MediumField] == MediumRequired
    ensures CampaignField in e ==> e[CampaignField] == CampaignRequired
  {
    var withUrl: Errors :=
      if p.url == "" then map[UrlField := UrlRequired]
      else if !ValidUrl(parse, p.url) then map[UrlField := UrlInvalid]
      else map[];
    var withSource := if p.source == "" then withUrl[SourceField := SourceRequired] else withUrl;
    var withMedium := if p.medium == "" then withSource[MediumField := MediumRequired] else withSource;
    if p.campaign == "" then withMedium[CampaignField := CampaignRequired] else withMedium
  }

  /** The text of one validated field. */
  function FieldValue(p: Fields, f: Field): string {
    match f
    case UrlField => p.url
    case SourceField => p.source
    case MediumField => p.medium
    case CampaignField => p.campaign
  }

  /** The checks are independent: whether a field has an error, and which,
      depends on that field's text alone. */
  lemma ValidateIsPerField(parse: Parser, p: Fields, p': Fields, f: Field)
    requires FieldValue(p, f) == FieldValue(p', f)
    ensures f in Validate(parse, p) <==> f in Validate(parse, p')
    ensures f in Validate(parse, p) ==> Validate(parse, p)[f] == Validate(parse, p')[f]
  {
  }

  /** The validation passes exactly when the three required tokens are
      present and the destination parses. */
  lemma ValidateEmptyIff(parse: Parser, p: Fields)
    ensures Validate(parse, p) == map[] <==>
      ValidUrl(parse, p.url) && p.source != "" && p.medium != "" && p.campaign != ""
  {
    var e := Validate(parse, p);
    if !ValidUrl(parse, p.url) { assert UrlField in e; }
    if p.source == "" { assert SourceField in e; }
    if p.medium == "" { assert MediumField in e; }
    if p.campaign == "" { assert CampaignField in e; }
    if ValidUrl(parse, p.url) && p.source != "" && p.medium != "" && p.campaign != "" {
      assert e.Keys == {};
    }
  }

  /** `searchParams.set(name, sanitizeParam(text))` when `text` is non-empty,
      nothing otherwise. */
  function SetIfPresent(q: seq<Pair>, name: string, text: string): (r: seq<Pair>)
    ensures text != "" ==> Get(r, name) == Some(SanitizeParam(text))
    ensures text == "" ==> r == q
    ensures forall other :: other != name ==> Get(r, other) == Get(q, other)
    ensures forall names :: name in names ==> Outside(r, names) == Outside(q, names)
  {
    if text == "" then q
    else
      var r := Set(q, name, SanitizeParam(text));
      assert forall other :: other != name ==> Get(r, other) == Get(q, other) by {
        forall other | other != name
          ensures Get(r, other) == Get(q, other)
        {
          SetKeepsOtherNames(q, name, SanitizeParam(text), other);
        }
      }
      assert forall names :: name in names ==> Outside(r, names) == Outside(q, names) by {
        forall names | name in names
          ensures Outside(r, names) == Outside(q, names)
        {
          SetKeepsOutside(q, name, SanitizeParam(text), names);
        }
      }
      r
  }

  /** The query after `generateUrl` sets the UTM pairs on the parsed
      destination, one name after the other. */
  function AssembleQuery(q: seq<Pair>, p: Fields): seq<Pair> {
    var q1 := Set(q, "utm_source", SanitizeParam(p.source));
    var q2 := Set(q1, "utm_medium", SanitizeParam(p.medium));
    var q3 := Set(q2, "utm_campaign", SanitizeParam(p.campaign));
    var q4 := SetIfPresent(q3, "utm_term", p.term);
    SetIfPresent(q4, "utm_content", p.content)
  }

  /** The parsed destination with the UTM pairs set. */
  function Assemble(base: Url, p: Fields): Url {
    base.(query := AssembleQuery(base.query, p))
  }

  /** Everything but the query is unchanged. Each UTM name that was set
      occurs exactly once, and `get` of each required UTM name yields the
      sanitized field. `utm_term` and `utm_content` yield the sanitized
      field when the RAW field is non-empty and are left as the destination
      had them otherwise. The pairs of every other name are kept, in order. */
  lemma AssembleSpec(base: Url, p: Fields)
    ensures Assemble(base, p).origin == base.origin && Assemble(base, p).pathname == base.pathname
    ensures Assemble(base, p).schemeAndHost == base.schemeAndHost
    ensures Assemble(base, p).credentials == base.credentials && Assemble(base, p).hash == base.hash
    ensures Get(Assemble(base, p).query, "utm_source") == Some(SanitizeParam(p.source))
    ensures Get(Assemble(base, p).query, "utm_medium") == Some(SanitizeParam(p.medium))
    ensures Get(Assemble(base, p).query, "utm_campaign") == Some(SanitizeParam(p.campaign))
    ensures p.term != "" ==> Get(Assemble(base, p).query, "utm_term") == Some(SanitizeParam(p.term))
    ensures p.term == "" ==> Get(Assemble(base, p).query, "utm_term") == Get(base.query, "utm_term")
    ensures p.content != "" ==> Get(Assemble(base, p).query, "utm_content") == Some(SanitizeParam(p.content))
    ensures p.content == "" ==> Get(Assemble(base, p).query, "utm_content") == Get(base.query, "utm_content")
    ensures Outside(Assemble(base, p).query, UtmNames) == Outside(base.query, UtmNames)
    ensures Occurrences(Assemble(base, p).query, "utm_source") == 1
    ensures Occurrences(Assemble(base, p).query, "utm_medium") == 1
    ensures Occurrences(Assemble(base, p).query, "utm_campaign") == 1
    ensures p.term != "" ==> Occurrences(Assemble(base, p).query, "utm_term") == 1
    ensures p.content != "" ==> Occurrences(Assemble(base, p).query, "utm_content") == 1
  {
    AssembleQuerySpec(base.query, p);
    AssembleQueryOccurrences(base.query, p);
  }

  lemma AssembleQuerySpec(q: seq<Pair>, p: Fields)
    ensures Get(AssembleQuery(q, p), "utm_source") == Some(SanitizeParam(p.source))
    ensures Get(AssembleQuery(q, p), "utm_medium") == Some(SanitizeParam(p.medium))
    ensures Get(AssembleQuery(q, p), "utm_campaign") == Some(SanitizeParam(p.campaign))
    ensures p.term != "" ==> Get(AssembleQuery(q, p), "utm_term") == Some(SanitizeParam(p.term))
    ensures p.term == "" ==> Get(AssembleQuery(q, p), "utm_term") == Get(q, "utm_term")
    ensures p.content != "" ==> Get(AssembleQuery(q, p), "utm_content") == Some(SanitizeParam(p.content))
    ensures p.content == "" ==> Get(AssembleQuery(q, p), "utm_content") == Get(q, "utm_content")
    ensures Outside(AssembleQuery(q, p), UtmNames) == Outside(q, UtmNames)
  {
    var q1 := Set(q, "utm_source", SanitizeParam(p.source));
    var q2 := Set(q1, "utm_medium", SanitizeParam(p.medium));
    var q3 := Set(q2, "utm_campaign", SanitizeParam(p.campaign));
    var q4 := SetIfPresent(q3, "utm_term", p.term);
    // the later names leave the earlier ones alone
    SetKeepsOtherNames(q1, "utm_medium", SanitizeParam(p.medium), "utm_source");
    SetKeepsOtherNames(q2, "utm_campaign", SanitizeParam(p.campaign), "utm_source");
    SetKeepsOtherNames(q2, "utm_campaign", SanitizeParam(p.campaign), "utm_medium");
    // the required names leave utm_term and utm_content alone
    SetKeepsOtherNames(q, "utm_source", SanitizeParam(p.source), "utm_term");
    SetKeepsOtherNames(q1, "utm_medium", SanitizeParam(p.medium), "utm_term");
    SetKeepsOtherNames(q2, "utm_campaign", SanitizeParam(p.campaign), "utm_term");
    SetKeepsOtherNames(q, "utm_source", SanitizeParam(p.source), "utm_content");
    SetKeepsOtherNames(q1, "utm_medium", SanitizeParam(p.medium), "utm_content");
    SetKeepsOtherNames(q2, "utm_campaign", SanitizeParam(p.campaign), "utm_content");
    // the pairs of other names survive every step
    SetKeepsOutside(q, "utm_source", SanitizeParam(p.source), UtmNames);
    SetKeepsOutside(q1, "utm_medium", SanitizeParam(p.medium), UtmNames);
    SetKeepsOutside(q2, "utm_campaign", SanitizeParam(p.campaign), UtmNames);
  }

  /** After assembly each UTM name that was set occurs exactly once: every
      `set` removes the destination's other pairs of that name. A name left
      unset occurs as often as in the destination. */
  lemma AssembleQueryOccurrences(q: seq<Pair>, p: Fields)
    ensures Occurrences(AssembleQuery(q, p), "utm_source") == 1
    ensures Occurrences(AssembleQuery(q, p), "utm_medium") == 1
    ensures Occurrences(AssembleQuery(q, p), "utm_campaign") == 1
    ensures p.term != "" ==> Occurrences(AssembleQuery(q, p), "utm_term") == 1
    ensures p.term == "" ==> Occurrences(AssembleQuery(q, p), "utm_term") == Occurrences(q, "utm_term")
    ensures p.content != "" ==> Occurrences(AssembleQuery(q, p), "utm_content") == 1
    ensures p.content == "" ==> Occurrences(AssembleQuery(q, p), "utm_content") == Occurrences(q, "utm_content")
  {
    var s, m, c := SanitizeParam(p.source), SanitizeParam(p.medium), SanitizeParam(p.campaign);
    var q1 := Set(q, "utm_source", s);
    var q2 := Set(q1, "utm_medium", m);
    var q3 := Set(q2, "utm_campaign", c);
    var q4 := SetIfPresent(q3, "utm_term", p.term);
    var q5 := SetIfPresent(q4, "utm_content", p.content);
    // utm_source
    SetOccurrences(q, "utm_source", s, "utm_term");
    SetOccurrences(q, "utm_source", s, "utm_content");
    // utm_medium
    SetOccurrences(q1, "utm_medium", m, "utm_source");
    SetOccurrences(q1, "utm_medium", m, "utm_term");
    SetOccurrences(q1, "utm_medium", m, "utm_content");
    // utm_campaign
    SetOccurrences(q2, "utm_campaign", c, "utm_source");
    SetOccurrences(q2, "utm_campaign", c, "utm_medium");
    SetOccurrences(q2, "utm_campaign", c, "utm_term");
    SetOccurrences(q2, "utm_campaign", c, "utm_content");
    if p.term != "" {
      var t := SanitizeParam(p.term);
      assert q4 == Set(q3, "utm_term", t);
      SetOccurrences(q3, "utm_term", t, "utm_source");
      SetOccurrences(q3, "utm_term", t, "utm_medium");
      SetOccurrences(q3, "utm_term", t, "utm_campaign");
      SetOccurrences(q3, "utm_term", t, "utm_content");
    }
    if p.content != "" {
      var t := SanitizeParam(p.content);
      assert q5 == Set(q4, "utm_content", t);
      SetOccurrences(q4, "utm_content", t, "utm_source");
      SetOccurrences(q4, "utm_content", t, "utm_medium");
      SetOccurrences(q4, "utm_content", t, "utm_campaign");
      SetOccurrences(q4, "utm_content", t, "utm_term");
    }
  }

  /** `generateUrl`. The errors are always replaced by the validation
      result. When it is non-empty, nothing else changes: no URL is produced
      and the history is untouched. Otherwise the destination (which then
      parses, since validation and assembly apply the same scheme rule) gets
      its UTM pairs, the serialized result becomes the generated URL, and it
      is recorded in the history at time `now`. */
  function GenerateUrl(parse: Parser, serialize: Serializer, pg: Page, now: int): (r: Page)
    ensures r.params == pg.params
    ensures r.errors == Validate(parse, pg.params)
    ensures r.errors != map[] ==> r.generatedUrl == pg.generatedUrl && r.history == pg.history
    ensures r.errors == map[] ==>
      && parse(WithScheme(pg.params.url)).Some?
      && r.generatedUrl == serialize(Assemble(parse(WithScheme(pg.params.url)).value, pg.params))
      && r.history == Record(pg.history, r.generatedUrl, now)
  {
    var errors := Validate(parse, pg.params);
    if errors != map[] then pg.(errors := errors)
    else
      ValidateEmptyIff(parse, pg.params);
      var base := parse(WithScheme(pg.params.url)).value;
      var finalUrl := serialize(Assemble(base, pg.params));
      pg.(errors := errors, generatedUrl := finalUrl, history := Record(pg.history, finalUrl, now))
  }

  /** A successful generation keeps the history within capacity and free of
      duplicate URLs, with the new URL at its head. */
  lemma GenerateKeepsHistoryInvariant(parse: Parser, serialize: Serializer, pg: Page, now: int)
    requires |pg.history| <= Capacity && NoDuplicateUrls(pg.history)
    ensures var r := GenerateUrl(parse, serialize, pg, now);
      && |r.history| <= Capacity
      && NoDuplicateUrls(r.history)
      && (r.errors == map[] ==> r.history[0] == Entry(r.generatedUrl, now))
  {
  }

  /** Two destinations that differ outside their query (in scheme, host,
      path, credentials or fragment) give two different generated URLs, so
      generating from the second after the first keeps both in the history:
      the new one at the head and the earlier one right behind it. The
      second destination must be non-empty, as validation demands, and the
      parser is assumed to read back both assembled URLs. */
  lemma GenerateKeepsDistinctDestinations(parse: Parser, serialize: Serializer, pg: Page, other: string,
                                          now1: int, now2: int, b1: Url, b2: Url)
    requires other != "" && parse(WithScheme(pg.params.url)) == Some(b1) && parse(WithScheme(other)) == Some(b2)
    requires b1.(query := []) != b2.(query := [])
    requires ReadsBack(parse, serialize, Assemble(b1, pg.params))
    requires ReadsBack(parse, serialize, Assemble(b2, pg.params))
    ensures var g1 := GenerateUrl(parse, serialize, pg, now1);
      var g2 := GenerateUrl(parse, serialize, g1.(params := g1.params.(url := other)), now2);
      g1.errors == map[] ==>
        && g2.errors == map[]
        && g2.generatedUrl != g1.generatedUrl
        && |g2.history| >= 2 && g2.history[1] == g1.history[0]
  {
    var g1 := GenerateUrl(parse, serialize, pg, now1);
    if g1.errors == map[] {
      var p2 := pg.params.(url := other);
      ValidateEmptyIff(parse, pg.params);
      ValidateEmptyIff(parse, p2);
      var a1, a2 := Assemble(b1, pg.params), Assemble(b2, pg.params);
      assert Assemble(b2, p2) == a2;
      AssembleSpec(b1, pg.params);
      AssembleSpec(b2, pg.params);
      assert a1 != a2;
      var g2 := GenerateUrl(parse, serialize, g1.(params := p2), now2);
      assert g2.generatedUrl == serialize(a2);
      assert parse(serialize(a1)) != parse(serialize(a2));
      RecordKeepsOtherHead(g1.history, g2.generatedUrl, now2);
    }
  }

  /** When the destination carries no UTM pairs of its own, the generated
      query has a `utm_term` (`utm_content`) pair exactly when the raw term
      (content) field is non-empty. */
  lemma OptionalPairsIffFilled(base: Url, p: Fields)
    requires forall i :: 0 <= i < |base.query| ==> base.query[i].0 !in UtmNames
    ensures Get(Assemble(base, p).query, "utm_term").Some? <==> p.term != ""
    ensures Get(Assemble(base, p).query, "utm_content").Some? <==> p.content != ""
  {
    AssembleSpec(base, p);
    assert "utm_term" !in Names(base.query);
    assert "utm_content" !in Names(base.query);
    GetNoneIffAbsent(base.query, "utm_term");
    GetNoneIffAbsent(base.query, "utm_content");
  }

  /** With the source left empty and everything else valid, the only error
      is the one on the source field. */
  lemma OnlySourceMissing(parse: Parser, p: Fields)
    requires p.source == "" && ValidUrl(parse, p.url) && p.medium != "" && p.campaign != ""
    ensures Validate(parse, p) == map[SourceField := SourceRequired]
  {
    var e := Validate(parse, p);
    assert e.Keys == {SourceField};
  }

  /** On a destination without a query and with the optional fields left
      empty, the query holds exactly the three required pairs, in the order
      they are set. */
  lemma AssembleWithoutQuery(base: Url, p: Fields)
    requires base.query == [] && p.term == "" && p.content == ""
    ensures Assemble(base, p).query ==
      [("utm_source", SanitizeParam(p.source)), ("utm_medium", SanitizeParam(p.medium)),
       ("utm_campaign", SanitizeParam(p.campaign))]
  {
    var q1 := [("utm_source", SanitizeParam(p.source))];
    var q2 := q1 + [("utm_medium", SanitizeParam(p.medium))];
    assert Names(q1) == ["utm_source"];
    assert Names(q2) == ["utm_source", "utm_medium"];
    SetAppendsWhenAbsent([], "utm_source", SanitizeParam(p.source));
    SetAppendsWhenAbsent(q1, "utm_medium", SanitizeParam(p.medium));
    SetAppendsWhenAbsent(q2, "utm_campaign", SanitizeParam(p.campaign));
  }

  /** Generating from a destination without a query, with the optional
      fields empty: the query of the result holds exactly the three required
      pairs. */
  lemma GenerateWithoutQuery(parse: Parser, serialize: Serializer, pg: Page, now: int, base: Url)
    requires parse(WithScheme(pg.params.url)) == Some(base) && base.query == []
    requires pg.params.url != "" && pg.params.source != "" && pg.params.medium != ""
    requires pg.params.campaign != "" && pg.params.term == "" && pg.params.content == ""
    ensures GenerateUrl(parse, serialize, pg, now).errors == map[]
    ensures GenerateUrl(parse, serialize, pg, now).generatedUrl == serialize(base.(query :=
      [("utm_source", SanitizeParam(pg.params.source)), ("utm_medium", SanitizeParam(pg.params.medium)),
       ("utm_campaign", SanitizeParam(pg.params.campaign))]))
  {
    ValidateEmptyIff(parse, pg.params);
    AssembleWithoutQuery(base, pg.params);
  }

  lemma SchemeExample()
    ensures WithScheme("example.com") == "https://example.com"
  {
    var u := "example.com";
    assert u[..4][0] == 'e' != "http"[0];
    assert !StartsWith(u, "http");
    assert WithScheme(u) == "https://" + u;
  }

  /** The worked example: destination "example.com", source "Google",
      medium "CPC", campaign "Summer Sale!" and nothing else. Provided the
      parser reads "https://example.com" as origin and scheme-and-host
      "https://example.com", path "/", no query, no credentials and no
      fragment, the generated URL is the serialization of that URL with the
      query utm_source=google, utm_medium=cpc, utm_campaign=summer_sale, in
      this order. */
  lemma GenerateExample(parse: Parser, serialize: Serializer, pg: Page, now: int)
    requires pg.params == Fields("example.com", "Google", "CPC", "Summer Sale!", "", "")
    requires parse("https://example.com") ==
      Some(Url("https://example.com", "https://example.com", "/", [], "", ""))
    ensures GenerateUrl(parse, serialize, pg, now).errors == map[]
    ensures GenerateUrl(parse, serialize, pg, now).generatedUrl ==
      serialize(Url("https://example.com", "https://example.com", "/",
        [("utm_source", "google"), ("utm_medium", "cpc"), ("utm_campaign", "summer_sale")], "", ""))
  {
    var p := pg.params;
    SchemeExample();
    SanitizeGoogle();
    SanitizeCpc();
    SanitizeExample();
    GenerateWithoutQuery(parse, serialize, pg, now,
      Url("https://example.com", "https://example.com", "/", [], "", ""));
  }
}

=== FILE: export.dfy ===
/** Reading a generated URL back: `loadFromHistory` puts the parts of a
    history URL into the form, and `exportHistory` builds the CSV text of the
    whole history. */
module Export {
  import opened Optional
  import opened Sanitize
  import opened SearchParams
  import opened Urls
  import opened History
  import opened Builder

  // ---------------------------------------------------------------------
  // Loading a history entry into the form

  /** The form fields `loadFromHistory` reads off a parsed URL: origin and
      path (the query dropped) as the destination, and each `utm_*` value,
      or "" when the name is absent. */
  function Decompose(u: Url): Fields {
    Fields(
      u.origin + u.pathname,
      Get(u.query, "utm_source").GetOr(""),
      Get(u.query, "utm_medium").GetOr(""),
      Get(u.query, "utm_campaign").GetOr(""),
      Get(u.query, "utm_term").GetOr(""),
      Get(u.query, "utm_content").GetOr(""))
  }

  /** `loadFromHistory(s)`: when `s` parses, the form takes its parts and
      `s` becomes the generated URL; when it does not, the page is left
      exactly as it was. Errors and history are never touched. */
  function LoadFromHistory(parse: Parser, pg: Page, s: string): (r: Page)
    ensures parse(s).None? ==> r == pg
    ensures r.errors == pg.errors && r.history == pg.history
    ensures parse(s).Some? ==> r.generatedUrl == s && r.params == Decompose(parse(s).value)
  {
    match parse(s)
    case None => pg
    case Some(u) => pg.(params := Decompose(u), generatedUrl := s)
  }

  /** Decompose ignores every query pair whose name is not a UTM name. */
  lemma DecomposeIgnoresOtherPairs(u: Url, q: seq<Pair>)
    requires forall i :: 0 <= i < |q| ==> q[i].0 !in UtmNames
    ensures Decompose(u.(query := u.query + q)) == Decompose(u)
  {
    forall name | name in UtmNames
      ensures Get(u.query + q, name) == Get(u.query, name)
    {
      GetAppendOthers(u.query, q, name);
    }
  }

  lemma {:induction false} GetAppendOthers(a: seq<Pair>, b: seq<Pair>, name: string)
    requires forall i :: 0 <= i < |b| ==> b[i].0 != name
    ensures Get(a + b, name) == Get(a, name)
  {
    if a == [] {
      assert a + b == b;
      assert name !in Names(b);
      GetNoneIffAbsent(b, name);
    } else {
      assert (a + b)[0] == a[0] && (a + b)[1..] == a[1..] + b;
      GetAppendOthers(a[1..], b, name);
    }
  }

  /** The round trip: loading a freshly generated URL back into the form
      gives the destination's origin and path, the sanitized required
      fields, and for each optional field its sanitized value when it was
      filled in, or whatever the destination itself carried otherwise.
      The one thing assumed of parsing is that it reads back the URL just
      serialized. */
  lemma LoadAfterGenerate(parse: Parser, serialize: Serializer, pg: Page, now: int, base: Url)
    requires parse(WithScheme(pg.params.url)) == Some(base)
    requires ReadsBack(parse, serialize, Assemble(base, pg.params))
    ensures var g := GenerateUrl(parse, serialize, pg, now);
      var p := pg.params;
      g.errors == map[] ==> LoadFromHistory(parse, g, g.generatedUrl).params == Fields(
        base.origin + base.pathname,
        SanitizeParam(p.source),
        SanitizeParam(p.medium),
        SanitizeParam(p.campaign),
        if p.term != "" then SanitizeParam(p.term) else Get(base.query, "utm_term").GetOr(""),
        if p.content != "" then SanitizeParam(p.content) else Get(base.query, "utm_content").GetOr(""))
  {
    AssembleSpec(base, pg.params);
  }

  /** When the destination carries no `utm_term` or `utm_content` pair of
      its own, the round trip gives back exactly the sanitized fields (the
      sanitized empty string being empty). */
  lemma LoadAfterGenerateClean(parse: Parser, serialize: Serializer, pg: Page, now: int, base: Url)
    requires parse(WithScheme(pg.params.url)) == Some(base)
    requires "utm_term" !in Names(base.query) && "utm_content" !in Names(base.query)
    requires ReadsBack(parse, serialize, Assemble(base, pg.params))
    ensures var g := GenerateUrl(parse, serialize, pg, now);
      var p := pg.params;
      g.errors == map[] ==> LoadFromHistory(parse, g, g.generatedUrl).params == Fields(
        base.origin + base.pathname,
        SanitizeParam(p.source), SanitizeParam(p.medium), SanitizeParam(p.campaign),
        SanitizeParam(p.term), SanitizeParam(p.content))
  {
    LoadAfterGenerate(parse, serialize, pg, now, base);
    GetNoneIffAbsent(base.query, "utm_term");
    GetNoneIffAbsent(base.query, "utm_content");
    SanitizeEmpty();
  }

  // ---------------------------------------------------------------------
  // The CSV export

  /** The header line, "URL,Source,Medium,Campaign,Term,Content,Timestamp",
      written in pieces so that facts about its characters stay cheap. */
  const Header: string := "URL,Source," + "Medium,Campaign," + "Term,Content," + "Timestamp"

  /** The largest distance from the epoch, in milliseconds, that a
      JavaScript `Date` can hold; beyond it `toISOString` throws. */
  const MaxTimeValue: int := 8_640_000_000_000_000

  /** `parts.join(sep)`. */
  function Join(parts: seq<string>, sep: string): string {
    if parts == [] then ""
    else if |parts| == 1 then parts[0]
    else parts[0] + sep + Join(parts[1..], sep)
  }

  function Quote(s: string): string {
    "\"" + s + "\""
  }

  /** The seven cells of one CSV row. */
  datatype Line = Line(
    url: string, source: string, medium: string, campaign: string,
    term: string, content: string, timestamp: string)

  /** The row for an entry whose URL parsed to `u`. The required names are
      interpolated without a fallback, so an absent one shows as the text
      "null"; the optional ones fall back to "". The timestamp is rendered by
      `iso`, standing for `toISOString`. */
  function LineFor(e: Entry, u: Url, iso: int -> string): Line {
    Line(
      e.url,
      Get(u.query, "utm_source").GetOr("null"),
      Get(u.query, "utm_medium").GetOr("null"),
      Get(u.query, "utm_campaign").GetOr("null"),
      Get(u.query, "utm_term").GetOr(""),
      Get(u.query, "utm_content").GetOr(""),
      iso(e.timestamp))
  }

  /** A UTM name missing from the URL shows as the text "null" in the
      source, medium and campaign columns, and as an empty cell in the term
      and content columns. */
  lemma LineForAbsentNames(e: Entry, u: Url, iso: int -> string)
    ensures "utm_source" !in Names(u.query) ==> LineFor(e, u, iso).source == "null"
    ensures "utm_medium" !in Names(u.query) ==> LineFor(e, u, iso).medium == "null"
    ensures "utm_campaign" !in Names(u.query) ==> LineFor(e, u, iso).campaign == "null"
    ensures "utm_term" !in Names(u.query) ==> LineFor(e, u, iso).term == ""
    ensures "utm_content" !in Names(u.query) ==> LineFor(e, u, iso).content == ""
  {
    GetNoneIffAbsent(u.query, "utm_source");
    GetNoneIffAbsent(u.query, "utm_medium");
    GetNoneIffAbsent(u.query, "utm_campaign");
    GetNoneIffAbsent(u.query, "utm_term");
    GetNoneIffAbsent(u.query, "utm_content");
  }

  /** The cells, each in double quotes, separated by commas. */
  function LineText(l: Line): string {
    Join([Quote(l.url), Quote(l.source), Quote(l.medium), Quote(l.campaign),
          Quote(l.term), Quote(l.content), Quote(l.timestamp)], ",")
  }

  /** An entry makes it into the export when its URL parses and its
      timestamp is a valid date; otherwise the `try` falls into its `catch`,
      yields "" and the row is filtered out. */
  predicate Exportable(parse: Parser, e: Entry) {
    parse(e.url).Some? && -MaxTimeValue <= e.timestamp <= MaxTimeValue
  }

  function CsvRow(parse: Parser, iso: int -> string, e: Entry): (r: Option<string>)
    ensures r.Some? <==> Exportable(parse, e)
  {
    match parse(e.url)
    case None => None
    case Some(u) =>
      if -MaxTimeValue <= e.timestamp <= MaxTimeValue then Some(LineText(LineFor(e, u, iso))) else None
  }

  /** One row per exportable entry, in history order. */
  function Rows(parse: Parser, iso: int -> string, h: seq<Entry>): (r: seq<string>)
    ensures |r| <= |h|
    ensures |r| == |h| <==> forall i :: 0 <= i < |h| ==> Exportable(parse, h[i])
  {
    if h == [] then []
    else
      var rest := Rows(parse, iso, h[1..]);
      assert forall i :: 1 <= i < |h| ==> h[i] == h[1..][i - 1];
      match CsvRow(parse, iso, h[0])
      case Some(row) => [row] + rest
      case None => rest
  }

  /** `exportHistory`'s text: the header line, then the rows, joined by
      newlines. */
  function ExportCsv(parse: Parser, iso: int -> string, h: seq<Entry>): string {
    Join([Header] + Rows(parse, iso, h), "\n")
  }

  /** The rows of two histories one after the other are the rows of each,
      one after the other: each entry contributes its own row or nothing,
      and the order is kept. */
  lemma {:induction false} RowsAppend(parse: Parser, iso: int -> string, h1: seq<Entry>, h2: seq<Entry>)
    ensures Rows(parse, iso, h1 + h2) == Rows(parse, iso, h1) + Rows(parse, iso, h2)
  {
    if h1 == [] {
      assert h1 + h2 == h2;
    } else {
      assert (h1 + h2)[0] == h1[0] && (h1 + h2)[1..] == h1[1..] + h2;
      RowsAppend(parse, iso, h1[1..], h2);
    }
  }

  /** A single entry contributes its own row exactly when it is exportable. */
  lemma RowsSingle(parse: Parser, iso: int -> string, e: Entry)
    ensures Exportable(parse, e) ==> Rows(parse, iso, [e]) == [CsvRow(parse, iso, e).value]
    ensures !Exportable(parse, e) ==> Rows(parse, iso, [e]) == []
  {
  }

  // ---------------------------------------------------------------------
  // Reading the lines back

  /** `s.split('\n')`. */
  function SplitLines(s: string): (r: seq<string>)
    ensures |r| >= 1
  {
    if s == [] then [""]
    else
      var rest := SplitLines(s[1..]);
      if s[0] == '\n' then [""] + rest else [[s[0]] + rest[0]] + rest[1..]
  }

  lemma {:induction false} SplitNoNewline(a: string)
    requires '\n' !in a
    ensures SplitLines(a) == [a]
  {
    if a != [] {
      SplitNoNewline(a[1..]);
      assert [a[0]] + a[1..] == a;
    }
  }

  lemma {:induction false} SplitAfterLine(a: string, b: string)
    requires '\n' !in a
    ensures SplitLines(a + "\n" + b) == [a] + SplitLines(b)
  {
    if a == [] {
      assert a + "\n" + b == ['\n'] + b;
      assert (['\n'] + b)[1..] == b;
    } else {
      var s := a + "\n" + b;
      assert s[0] == a[0] && s[1..] == a[1..] + "\n" + b;
      SplitAfterLine(a[1..], b);
      assert [a[0]] + a[1..] == a;
    }
  }

  /** Splitting joined lines at the newlines gives the lines back, provided
      none of them contains a newline itself. */
  lemma {:induction false} SplitJoin(lines: seq<string>)
    requires |lines| >= 1
    requires forall i :: 0 <= i < |lines| ==> '\n' !in lines[i]
    ensures SplitLines(Join(lines, "\n")) == lines
  {
    if |lines| == 1 {
      SplitNoNewline(lines[0]);
    } else {
      SplitJoin(lines[1..]);
      SplitAfterLine(lines[0], Join(lines[1..], "\n"));
      assert [lines[0]] + lines[1..] == lines;
    }
  }

  lemma HeaderIsOneLine()
    ensures '\n' !in Header
  {
  }

  /** The export is the header line followed by one line per row, whenever
      no row holds a newline of its own. */
  lemma ExportLines(parse: Parser, iso: int -> string, h: seq<Entry>)
    requires forall i :: 0 <= i < |Rows(parse, iso, h)| ==> '\n' !in Rows(parse, iso, h)[i]
    ensures SplitLines(ExportCsv(parse, iso, h)) == [Header] + Rows(parse, iso, h)
  {
    var lines := [Header] + Rows(parse, iso, h);
    HeaderIsOneLine();
    assert forall i :: 1 <= i < |lines| ==> lines[i] == Rows(parse, iso, h)[i - 1];
    SplitJoin(lines);
  }

  /** The hypothesis of `ExportLines` can fail. `get` returns decoded text,
      so a destination such as `example.com/?utm_term=a%0Ab`, with the term
      field left empty, keeps its `utm_term` pair. That pair's value holds a
      newline, which lands in the Term cell and so in the row text. */
  lemma RowCanHoldNewline(e: Entry, iso: int -> string, base: Url, p: Fields)
    requires base == Url("https://example.com", "https://example.com", "/", [("utm_term", "a\nb")],
                         "", "")
    requires p == Fields("example.com", "x", "y", "z", "", "")
    ensures '\n' in LineFor(e, Assemble(base, p), iso).term
    ensures '\n' in LineText(LineFor(e, Assemble(base, p), iso))
  {
    AssembleSpec(base, p);
    var l := LineFor(e, Assemble(base, p), iso);
    assert l.term[1] == '\n';
    TermInLine(l);
  }

  /** Every character of the Term cell appears in the row text. */
  lemma TermInLine(l: Line)
    ensures forall c :: c in l.term ==> c in LineText(l)
  {
    var front := Quote(l.url) + "," + Quote(l.source) + "," + Quote(l.medium) + "," + Quote(l.campaign) + ",";
    var back := "," + Quote(l.content) + "," + Quote(l.timestamp);
    JoinLine(l);
    assert LineText(l) == front + "\"" + l.term + "\"" + back;
    forall c | c in l.term
      ensures c in LineText(l)
    {
      var k :| 0 <= k < |l.term| && l.term[k] == c;
      assert LineText(l)[|front| + 1 + k] == c;
    }
  }

  /** The row text spelled out: seven quoted cells with commas between. */
  lemma JoinLine(l: Line)
    ensures LineText(l) == Quote(l.url) + "," + Quote(l.source) + "," + Quote(l.medium) + ","
      + Quote(l.campaign) + "," + Quote(l.term) + "," + Quote(l.content) + "," + Quote(l.timestamp)
  {
    var cells := [Quote(l.url), Quote(l.source), Quote(l.medium), Quote(l.campaign),
                  Quote(l.term), Quote(l.content), Quote(l.timestamp)];
    var j6 := Join(cells[6..], ",");
    var j5 := Join(cells[5..], ",");
    var j4 := Join(cells[4..], ",");
    var j3 := Join(cells[3..], ",");
    var j2 := Join(cells[2..], ",");
    var j1 := Join(cells[1..], ",");
    assert j6 == cells[6];
    assert cells[5..][1..] == cells[6..];
    assert j5 == cells[5] + "," + j6;
    assert cells[4..][1..] == cells[5..];
    assert j4 == cells[4] + "," + j5;
    assert cells[3..][1..] == cells[4..];
    assert j3 == cells[3] + "," + j4;
    assert cells[2..][1..] == cells[3..];
    assert j2 == cells[2] + "," + j3;
    assert cells[1..][1..] == cells[2..];
    assert j1 == cells[1] + "," + j2;
    assert LineText(l) == cells[0] + "," + j1;
  }

  /** A history whose first entry is exportable has that entry's row first. */
  lemma FirstRow(parse: Parser, iso: int -> string, e: Entry, rest: seq<Entry>, u: Url)
    requires parse(e.url) == Some(u) && -MaxTimeValue <= e.timestamp <= MaxTimeValue
    ensures |Rows(parse, iso, [e] + rest)| >= 1
    ensures Rows(parse, iso, [e] + rest)[0] == LineText(LineFor(e, u, iso))
  {
    assert CsvRow(parse, iso, e) == Some(LineText(LineFor(e, u, iso)));
    RowsAppend(parse, iso, [e], rest);
  }

  /** In the row of an assembled URL, the source, medium and campaign cells
      are the sanitized fields. */
  lemma AssembledLine(e: Entry, base: Url, p: Fields, iso: int -> string)
    ensures LineFor(e, Assemble(base, p), iso).source == SanitizeParam(p.source)
    ensures LineFor(e, Assemble(base, p), iso).medium == SanitizeParam(p.medium)
    ensures LineFor(e, Assemble(base, p), iso).campaign == SanitizeParam(p.campaign)
    ensures p.term != "" ==> LineFor(e, Assemble(base, p), iso).term == SanitizeParam(p.term)
    ensures p.content != "" ==> LineFor(e, Assemble(base, p), iso).content == SanitizeParam(p.content)
  {
    AssembleSpec(base, p);
  }

  /** After a successful generation at a valid time, the first CSV row is
      the row of the new entry (assuming, as above, that the parser reads
      back the URL just serialized). */
  lemma ExportAfterGenerate(parse: Parser, serialize: Serializer, iso: int -> string, pg: Page, now: int,
                            base: Url)
    requires parse(WithScheme(pg.params.url)) == Some(base)
    requires ReadsBack(parse, serialize, Assemble(base, pg.params))
    requires -MaxTimeValue <= now <= MaxTimeValue
    ensures var g := GenerateUrl(parse, serialize, pg, now);
      var rows := Rows(parse, iso, g.history);
      g.errors == map[] ==> |rows| >= 1 && rows[0] == LineText(LineFor(Entry(g.generatedUrl, now), Assemble(base, pg.params), iso))
  {
    var g := GenerateUrl(parse, serialize, pg, now);
    if g.errors == map[] {
      var e := Entry(g.generatedUrl, now);
      assert g.history == [e] + g.history[1..];
      FirstRow(parse, iso, e, g.history[1..], Assemble(base, pg.params));
    }
  }
}

=== FILE: history.dfy ===
/** The history of generated links: newest first, at most ten entries, one
    entry per URL string. */
module History {

  datatype Entry = Entry(url: string, timestamp: int)

  /** The most entries the history keeps. */
  const Capacity: nat := 10

  /** No two entries share a URL string. */
  predicate NoDuplicateUrls(h: seq<Entry>) {
    forall i, j :: 0 <= i < j < |h| ==> h[i].url != h[j].url
  }

  predicate HasUrl(h: seq<Entry>, url: string) {
    exists i :: 0 <= i < |h| && h[i].url == url
  }

  /** `a` is `b` with some entries left out and the rest in their order. */
  predicate IsSubsequence<T(==)>(a: seq<T>, b: seq<T>)
    decreases |b|
  {
    if a == [] then true
    else if b == [] then false
    else if a[0] == b[0] then IsSubsequence(a[1..], b[1..])
    else IsSubsequence(a, b[1..])
  }

  /** `history.filter(h => h.url !== url)`. */
  function DropUrl(h: seq<Entry>, url: string): (r: seq<Entry>)
    ensures |r| <= |h|
    ensures forall i :: 0 <= i < |r| ==> r[i].url != url
  {
    if h == [] then []
    else if h[0].url == url then DropUrl(h[1..], url)
    else [h[0]] + DropUrl(h[1..], url)
  }

  /** The history after generating `url` at time `now`: the new entry first,
      then the older entries without that URL, cut to nine. */
  function Record(h: seq<Entry>, url: string, now: int): (r: seq<Entry>)
    ensures 1 <= |r| <= Capacity
    ensures r[0] == Entry(url, now)
    ensures forall i :: 1 <= i < |r| ==> r[i].url != url
    ensures IsSubsequence(r[1..], h)
    ensures NoDuplicateUrls(h) ==> NoDuplicateUrls(r)
  {
    var rest := DropUrl(h, url);
    var kept := if |rest| <= Capacity - 1 then rest else rest[..Capacity - 1];
    DropUrlIsSubsequence(h, url);
    PrefixIsSubsequence(rest, h, |kept|);
    DropUrlKeepsNoDuplicates(h, url);
    assert ([Entry(url, now)] + kept)[1..] == kept;
    [Entry(url, now)] + kept
  }

  // ---------------------------------------------------------------------

  lemma {:induction false} DropUrlIsSubsequence(h: seq<Entry>, url: string)
    ensures IsSubsequence(DropUrl(h, url), h)
  {
    if h != [] {
      DropUrlIsSubsequence(h[1..], url);
      if h[0].url == url {
        SubsequenceOfTail(DropUrl(h[1..], url), h);
      } else {
        assert ([h[0]] + DropUrl(h[1..], url))[1..] == DropUrl(h[1..], url);
      }
    }
  }

  lemma {:induction false} SubsequenceOfTail<T>(a: seq<T>, b: seq<T>)
    requires b != [] && IsSubsequence(a, b[1..])
    ensures IsSubsequence(a, b)
    decreases |b|, 0
  {
    if a != [] && a[0] == b[0] {
      // b[1..] contains a, so it contains a[1..] as well
      SubsequenceDropHead(a, b[1..]);
    }
  }

  lemma {:induction false} SubsequenceDropHead<T>(a: seq<T>, b: seq<T>)
    requires a != [] && IsSubsequence(a, b)
    ensures IsSubsequence(a[1..], b)
    decreases |b|, 1
  {
    if a[0] == b[0] {
      if a[1..] != [] {
        SubsequenceOfTail(a[1..], b);
      }
    } else {
      SubsequenceDropHead(a, b[1..]);
      SubsequenceOfTail(a[1..], b);
    }
  }

  lemma {:induction false} PrefixIsSubsequence<T>(a: seq<T>, b: seq<T>, k: nat)
    requires k <= |a| && IsSubsequence(a, b)
    ensures IsSubsequence(a[..k], b)
    decreases |b|
  {
    if k > 0 {
      if a[0] == b[0] {
        PrefixIsSubsequence(a[1..], b[1..], k - 1);
        assert a[..k][1..] == a[1..][..k - 1];
      } else {
        PrefixIsSubsequence(a, b[1..], k);
      }
    }
  }

  /** The filter works entry by entry: it distributes over concatenation. */
  lemma {:induction false} DropUrlAppend(h1: seq<Entry>, h2: seq<Entry>, url: string)
    ensures DropUrl(h1 + h2, url) == DropUrl(h1, url) + DropUrl(h2, url)
  {
    if h1 != [] {
      assert (h1 + h2)[0] == h1[0] && (h1 + h2)[1..] == h1[1..] + h2;
      DropUrlAppend(h1[1..], h2, url);
    } else {
      assert h1 + h2 == h2;
    }
  }

  /** The filter removes every copy of every entry with the URL and keeps
      every copy of every other entry, duplicates included. */
  lemma {:induction false} DropUrlCounts(h: seq<Entry>, url: string, e: Entry)
    ensures multiset(DropUrl(h, url))[e] == if e.url == url then 0 else multiset(h)[e]
  {
    if h != [] {
      DropUrlCounts(h[1..], url, e);
      assert h == [h[0]] + h[1..];
      if h[0].url != url {
        assert DropUrl(h, url) == [h[0]] + DropUrl(h[1..], url);
      }
    }
  }

  lemma {:induction false} DropUrlKeepsEntries(h: seq<Entry>, url: string, e: Entry)
    requires e in DropUrl(h, url)
    ensures e in h
  {
    if h != [] && h[0].url != url && e != h[0] {
      DropUrlKeepsEntries(h[1..], url, e);
    } else if h != [] && h[0].url == url {
      DropUrlKeepsEntries(h[1..], url, e);
    }
  }

  lemma {:induction false} DropUrlKeepsNoDuplicates(h: seq<Entry>, url: string)
    ensures NoDuplicateUrls(h) ==> NoDuplicateUrls(DropUrl(h, url))
  {
    if h != [] && NoDuplicateUrls(h) {
      DropUrlKeepsNoDuplicates(h[1..], url);
      if h[0].url != url {
        var r := DropUrl(h[1..], url);
        forall j | 0 <= j < |r|
          ensures r[j].url != h[0].url
        {
          DropUrlKeepsEntries(h[1..], url, r[j]);
        }
        assert DropUrl(h, url) == [h[0]] + r;
      }
    }
  }

  lemma {:induction false} DropUrlAbsent(h: seq<Entry>, url: string)
    requires !HasUrl(h, url)
    ensures DropUrl(h, url) == h
  {
    if h != [] {
      assert h[0].url != url;
      DropUrlAbsent(h[1..], url);
    }
  }

  lemma {:induction false} DropUrlPresent(h: seq<Entry>, url: string)
    requires NoDuplicateUrls(h) && HasUrl(h, url)
    ensures |DropUrl(h, url)| == |h| - 1
  {
    if h[0].url == url {
      DropUrlAbsent(h[1..], url);
    } else {
      DropUrlPresent(h[1..], url);
    }
  }

  // ---------------------------------------------------------------------

  /** The entries behind the new one are the first survivors of the filter:
      all of them when there are at most nine, the first nine otherwise. */
  lemma RecordKeepsFirstSurvivors(h: seq<Entry>, url: string, now: int)
    ensures var r := Record(h, url, now);
      var rest := DropUrl(h, url);
      && |r| - 1 == (if |rest| < Capacity then |rest| else Capacity - 1)
      && r[1..] == rest[..|r| - 1]
  {
    var rest := DropUrl(h, url);
    var kept := if |rest| <= Capacity - 1 then rest else rest[..Capacity - 1];
    assert Record(h, url, now) == [Entry(url, now)] + kept;
    assert ([Entry(url, now)] + kept)[1..] == kept;
  }

  /** Recording a different URL keeps the previous head right behind the
      new entry. */
  lemma RecordKeepsOtherHead(h: seq<Entry>, url: string, now: int)
    requires |h| >= 1 && h[0].url != url
    ensures |Record(h, url, now)| >= 2 && Record(h, url, now)[1] == h[0]
  {
    RecordKeepsFirstSurvivors(h, url, now);
    assert DropUrl(h, url) == [h[0]] + DropUrl(h[1..], url);
  }

  /** A history holding an entry twice loses both copies, and only them. */
  lemma DropUrlRepeated(a: Entry, b: Entry)
    requires a.url != b.url
    ensures DropUrl([a, a, b], a.url) == [b]
  {
    assert [a, a, b][1..] == [a, b];
    assert [a, b][1..] == [b];
    assert DropUrl([b], a.url) == [b] + DropUrl([], a.url);
    assert DropUrl([a, b], a.url) == DropUrl([b], a.url);
  }

  /** Recording a URL that is not in the history puts it in front of the
      nine most recent entries. */
  lemma RecordNewUrl(h: seq<Entry>, url: string, now: int)
    requires !HasUrl(h, url)
    ensures Record(h, url, now) == [Entry(url, now)] + (if |h| < Capacity then h else h[..Capacity - 1])
  {
    DropUrlAbsent(h, url);
  }

  /** Recording a URL already present in a duplicate-free history that is
      within capacity moves it to the front: the length is unchanged. */
  lemma RecordPresentUrl(h: seq<Entry>, url: string, now: int)
    requires NoDuplicateUrls(h) && |h| <= Capacity && HasUrl(h, url)
    ensures |Record(h, url, now)| == |h|
  {
    DropUrlPresent(h, url);
  }

  /** Recording the same URL twice from an empty history leaves one entry
      with the later timestamp. */
  lemma RecordTwice(url: string, first: int, second: int)
    ensures Record(Record([], url, first), url, second) == [Entry(url, second)]
  {
    var once := Record([], url, first);
    assert once == [Entry(url, first)];
    assert DropUrl(once, url) == [];
  }
}

=== FILE: optional.dfy ===
/** A value that may be absent: the model's stand-in for JavaScript's `null`
    results and for operations that throw. */
module Optional {

  datatype Option<T> = None | Some(value: T) {

    /** The value, or `default` when there is none. With the default "",
        this is JavaScript's `x || ''` on a string that may be `null` (an
        empty value and an absent one both give ""). With the default
        "null", it is the interpolation of a possibly `null` value into a
        template literal. */
    function GetOr(default: T): (r: T)
      ensures Some? ==> r == value
      ensures None? ==> r == default
    {
      match this
      case Some(v) => v
      case None => default
    }
  }
}

=== FILE: sanitize.dfy ===
/** The `sanitizeParam` transform of the UTM builder: it turns a free-text form
    field into a query token over the alphabet `[a-z0-9_-]` by lower-casing,
    trimming, replacing every run of white space with `_` and deleting every
    other character outside the alphabet. */
module Sanitize {

  /** The characters that JavaScript's `\s` and `String.prototype.trim` both
      treat as white space: the WhiteSpace and LineTerminator code points. */
  predicate IsSpace(c: char) {
    || c == '\t' || c == '\n' || c == '\U{000B}' || c == '\U{000C}' || c == '\r'
    || c == ' ' || c == '\U{00A0}' || c == '\U{1680}'
    || ('\U{2000}' <= c <= '\U{200A}')
    || c == '\U{2028}' || c == '\U{2029}' || c == '\U{202F}' || c == '\U{205F}'
    || c == '\U{3000}' || c == '\U{FEFF}'
  }

  predicate NoSpace(s: string) {
    forall i :: 0 <= i < |s| ==> !IsSpace(s[i])
  }

  predicate AllSpace(s: string) {
    forall i :: 0 <= i < |s| ==> IsSpace(s[i])
  }

  /** The output alphabet `[a-z0-9_-]`. */
  predicate IsTokenChar(c: char) {
    ('a' <= c <= 'z') || ('0' <= c <= '9') || c == '_' || c == '-'
  }

  predicate IsToken(s: string) {
    forall i :: 0 <= i < |s| ==> IsTokenChar(s[i])
  }

  lemma TokenHasNoSpace(s: string)
    requires IsToken(s)
    ensures NoSpace(s)
  {
  }

  /** `toLowerCase` on one character. Besides A-Z, the only characters whose
      lower case contains an ASCII letter are U+0130 (capital I with dot,
      which becomes `i` followed by U+0307) and U+212A (Kelvin sign, which
      becomes `k`). Every other character is kept as it is: its real lower
      case is again neither white space nor in the token alphabet, so the
      sanitized result is the same. */
  function LowerChar(c: char): string
  {
    if 'A' <= c <= 'Z' then [(c as int + 32) as char]
    else if c == '\U{0130}' then ['i', '\U{0307}']
    else if c == '\U{212A}' then ['k']
    else [c]
  }

  /** `toLowerCase` on a string, character by character. */
  function ToLower(s: string): string
  {
    if s == [] then [] else LowerChar(s[0]) + ToLower(s[1..])
  }

  /** Drops the leading white space (the `trimStart` half of `trim`). */
  function TrimStart(s: string): (r: string)
    ensures |r| <= |s|
    ensures s != [] && IsSpace(s[0]) ==> |r| < |s|
  {
    if s != [] && IsSpace(s[0]) then TrimStart(s[1..]) else s
  }

  /** Drops the trailing white space (the `trimEnd` half of `trim`). */
  function TrimEnd(s: string): (r: string)
    ensures |r| <= |s|
  {
    if s != [] && IsSpace(s[|s| - 1]) then TrimEnd(s[..|s| - 1]) else s
  }

  /** `String.prototype.trim`: white space removed at both ends. */
  function Trim(s: string): string
  {
    TrimEnd(TrimStart(s))
  }

  /** `replace(/\s+/g, '_')`: every maximal run of white space becomes a
      single underscore. */
  function CollapseSpaces(s: string): string
    decreases |s|
  {
    if s == [] then []
    else if IsSpace(s[0]) then ['_'] + CollapseSpaces(TrimStart(s))
    else [s[0]] + CollapseSpaces(s[1..])
  }

  /** `replace(/[^a-z0-9_-]/g, '')`: every character outside the token
      alphabet is deleted. */
  function StripDisallowed(s: string): string
  {
    if s == [] then []
    else if IsTokenChar(s[0]) then [s[0]] + StripDisallowed(s[1..])
    else StripDisallowed(s[1..])
  }

  /** `sanitizeParam`: lower-case, trim, collapse white-space runs to `_`,
      delete everything outside `[a-z0-9_-]`. Whatever the input, the result
      is a token. */
  function SanitizeParam(value: string): (r: string)
    ensures IsToken(r)
  {
    var stripped := StripDisallowed(CollapseSpaces(Trim(ToLower(value))));
    StripYieldsToken(CollapseSpaces(Trim(ToLower(value))));
    stripped
  }

  // ---------------------------------------------------------------------
  // The steps, one property at a time

  /** Lower-casing leaves a token as it is. */
  lemma {:induction false} ToLowerFixesTokens(s: string)
    requires IsToken(s)
    ensures ToLower(s) == s
  {
    if s != [] {
      ToLowerFixesTokens(s[1..]);
    }
  }

  /** Lower-casing distributes over concatenation. */
  lemma {:induction false} ToLowerAppend(a: string, b: string)
    ensures ToLower(a + b) == ToLower(a) + ToLower(b)
  {
    if a != [] {
      assert (a + b)[0] == a[0] && (a + b)[1..] == a[1..] + b;
      ToLowerAppend(a[1..], b);
      assert ToLower(a + b) == LowerChar(a[0]) + ToLower(a[1..] + b);
    } else {
      assert a + b == b;
    }
  }

  /** `TrimStart` keeps the longest suffix that does not start with white
      space, and what it drops is all white space. */
  lemma {:induction false} TrimStartSpec(s: string)
    ensures TrimStart(s) == s[|s| - |TrimStart(s)|..]
    ensures forall k :: 0 <= k < |s| - |TrimStart(s)| ==> IsSpace(s[k])
    ensures TrimStart(s) == [] || !IsSpace(TrimStart(s)[0])
  {
    if s != [] && IsSpace(s[0]) {
      TrimStartSpec(s[1..]);
    }
  }

  /** `TrimEnd` keeps the longest prefix that does not end with white space,
      and what it drops is all white space. */
  lemma {:induction false} TrimEndSpec(s: string)
    ensures TrimEnd(s) == s[..|TrimEnd(s)|]
    ensures forall k :: |TrimEnd(s)| <= k < |s| ==> IsSpace(s[k])
    ensures TrimEnd(s) == [] || !IsSpace(TrimEnd(s)[|TrimEnd(s)| - 1])
  {
    if s != [] && IsSpace(s[|s| - 1]) {
      TrimEndSpec(s[..|s| - 1]);
    }
  }

  /** Trimming keeps a contiguous slice of its input whose ends are not white
      space, and removes only white space on either side of it. */
  lemma TrimIsSlice(s: string) returns (i: nat, j: nat)
    ensures i <= j <= |s| && Trim(s) == s[i..j]
    ensures forall k :: 0 <= k < i ==> IsSpace(s[k])
    ensures forall k :: j <= k < |s| ==> IsSpace(s[k])
    ensures Trim(s) == [] || (!IsSpace(Trim(s)[0]) && !IsSpace(Trim(s)[|Trim(s)| - 1]))
  {
    var t := TrimStart(s);
    TrimStartSpec(s);
    TrimEndSpec(t);
    i := |s| - |t|;
    j := i + |TrimEnd(t)|;
    assert forall k :: j <= k < |s| ==> s[k] == t[k - i];
  }

  /** Trimming leaves a string without white space as it is. */
  lemma TrimFixesSpaceFree(s: string)
    requires NoSpace(s)
    ensures Trim(s) == s
  {
  }

  /** No white space survives the run collapsing. */
  lemma {:induction false} CollapseRemovesSpaces(s: string)
    ensures NoSpace(CollapseSpaces(s))
    decreases |s|
  {
    if s != [] {
      if IsSpace(s[0]) {
        CollapseRemovesSpaces(TrimStart(s));
      } else {
        CollapseRemovesSpaces(s[1..]);
      }
    }
  }

  /** The run collapsing leaves a string without white space as it is. */
  lemma {:induction false} CollapseFixesSpaceFree(s: string)
    requires NoSpace(s)
    ensures CollapseSpaces(s) == s
  {
    if s != [] {
      CollapseFixesSpaceFree(s[1..]);
    }
  }

  /** A white-space-free prefix passes through the run collapsing untouched. */
  lemma {:induction false} CollapseNoSpacePrefix(a: string, b: string)
    requires NoSpace(a)
    ensures CollapseSpaces(a + b) == a + CollapseSpaces(b)
  {
    if a != [] {
      assert (a + b)[0] == a[0] && (a + b)[1..] == a[1..] + b;
      CollapseNoSpacePrefix(a[1..], b);
      assert CollapseSpaces(a + b) == [a[0]] + CollapseSpaces(a[1..] + b);
    } else {
      assert a + b == b;
    }
  }

  /** Dropping the leading white space removes a whole white-space run and
      stops at the first other character. */
  lemma {:induction false} TrimStartRun(w: string, b: string)
    requires AllSpace(w) && (b == [] || !IsSpace(b[0]))
    ensures TrimStart(w + b) == b
  {
    if w == [] {
      assert w + b == b;
    } else {
      assert (w + b)[0] == w[0] && (w + b)[1..] == w[1..] + b;
      TrimStartRun(w[1..], b);
    }
  }

  /** The `+` of `\s+`: a whole run of white space, however long, becomes a
      single underscore. With `CollapseFixesSpaceFree` this determines the
      result for every input. */
  lemma CollapseRun(a: string, w: string, b: string)
    requires NoSpace(a) && w != [] && AllSpace(w) && (b == [] || !IsSpace(b[0]))
    ensures CollapseSpaces(a + w + b) == a + "_" + CollapseSpaces(b)
  {
    assert a + w + b == a + (w + b);
    CollapseNoSpacePrefix(a, w + b);
    assert (w + b)[0] == w[0];
    TrimStartRun(w, b);
  }

  /** Only token characters survive the deletion. */
  lemma {:induction false} StripYieldsToken(s: string)
    ensures IsToken(StripDisallowed(s))
  {
    if s != [] {
      StripYieldsToken(s[1..]);
    }
  }

  /** The deletion leaves a token as it is. */
  lemma {:induction false} StripFixesTokens(s: string)
    requires IsToken(s)
    ensures StripDisallowed(s) == s
  {
    if s != [] {
      StripFixesTokens(s[1..]);
    }
  }

  /** The deletion keeps every occurrence of every token character. */
  lemma {:induction false} StripKeepsTokenChars(s: string, c: char)
    requires IsTokenChar(c)
    ensures multiset(StripDisallowed(s))[c] == multiset(s)[c]
  {
    if s != [] {
      assert s == [s[0]] + s[1..];
      StripKeepsTokenChars(s[1..], c);
    }
  }

  /** Deleting disallowed characters distributes over concatenation. */
  lemma {:induction false} StripAppend(a: string, b: string)
    ensures StripDisallowed(a + b) == StripDisallowed(a) + StripDisallowed(b)
  {
    if a != [] {
      assert (a + b)[0] == a[0] && (a + b)[1..] == a[1..] + b;
      StripAppend(a[1..], b);
      if IsTokenChar(a[0]) {
        assert StripDisallowed(a + b) == [a[0]] + StripDisallowed(a[1..] + b);
      } else {
        assert StripDisallowed(a + b) == StripDisallowed(a[1..] + b);
      }
    } else {
      assert a + b == b;
    }
  }

  // ---------------------------------------------------------------------
  // The sanitizer as a whole

  /** A token is a fixed point of the sanitizer. */
  lemma SanitizeFixesTokens(s: string)
    requires IsToken(s)
    ensures SanitizeParam(s) == s
  {
    TokenHasNoSpace(s);
    ToLowerFixesTokens(s);
    TrimFixesSpaceFree(s);
    CollapseFixesSpaceFree(s);
    StripFixesTokens(s);
  }

  /** Sanitizing twice is sanitizing once. */
  lemma SanitizeIdempotent(s: string)
    ensures SanitizeParam(SanitizeParam(s)) == SanitizeParam(s)
  {
    SanitizeFixesTokens(SanitizeParam(s));
  }

  /** The empty field sanitizes to the empty string. */
  lemma SanitizeEmpty()
    ensures SanitizeParam("") == ""
  {
  }

  // ---------------------------------------------------------------------
  // The worked example "Summer Sale!" -> "summer_sale", step by step

  lemma ToLowerWord(u: char, w: string)
    requires 'A' <= u <= 'Z' && IsToken(w)
    ensures ToLower([u] + w) == [(u as int + 32) as char] + w
  {
    ToLowerAppend([u], w);
    ToLowerFixesTokens(w);
  }

  lemma ToLowerCapitalized(u: char, w: string, c: char)
    requires 'A' <= u <= 'Z' && IsToken(w) && LowerChar(c) == [c]
    ensures ToLower([u] + w + [c]) == [(u as int + 32) as char] + w + [c]
  {
    ToLowerAppend([u] + w, [c]);
    ToLowerAppend([u], w);
    ToLowerFixesTokens(w);
  }

  lemma CollapseOneSpace(a: string, b: string)
    requires NoSpace(a) && NoSpace(b)
    ensures CollapseSpaces(a + [' '] + b) == a + ['_'] + b
  {
    assert a + [' '] + b == a + ([' '] + b);
    CollapseNoSpacePrefix(a, [' '] + b);
    assert TrimStart([' '] + b) == b by {
      assert ([' '] + b)[1..] == b;
    }
    CollapseFixesSpaceFree(b);
  }

  lemma StripTrailing(t: string, c: char)
    requires IsToken(t) && !IsTokenChar(c)
    ensures StripDisallowed(t + [c]) == t
  {
    StripAppend(t, [c]);
    StripFixesTokens(t);
  }

  // The input is a parameter pinned by the requires rather than a literal in
  // the ensures: with the literal, the solver unfolds lower-casing on it far
  // more deeply and the proof becomes several times as expensive.
  lemma LowerExample(v: string)
    requires v == "Summer Sale!"
    ensures ToLower(v) == "summer sale!"
  {
    var a, b := ['S'] + "ummer" + [' '], ['S'] + "ale" + ['!'];
    assert v == a + b;
    ToLowerAppend(a, b);
    ToLowerCapitalized('S', "ummer", ' ');
    ToLowerCapitalized('S', "ale", '!');
  }

  lemma TrimExample()
    ensures Trim("summer sale!") == "summer sale!"
  {
    var t := "summer sale!";
    assert TrimStart(t) == t;
    assert TrimEnd(t) == t;
  }

  // The input is a parameter pinned by the requires rather than a literal in
  // the ensures: with the literal, the solver unfolds the white-space
  // collapse on it far more deeply and the proof becomes several times as
  // expensive.
  lemma CollapseExample(t: string)
    requires t == "summer sale!"
    ensures CollapseSpaces(t) == "summer_sale!"
  {
    assert t == "summer" + [' '] + "sale!";
    CollapseOneSpace("summer", "sale!");
  }

  lemma StripExample()
    ensures StripDisallowed("summer_sale!") == "summer_sale"
  {
    var t := "summer_sale!";
    assert t == "summer_sale" + ['!'];
    StripTrailing("summer_sale", '!');
  }

  /** The worked example: "Summer Sale!" becomes "summer_sale". */
  lemma SanitizeExample()
    ensures SanitizeParam("Summer Sale!") == "summer_sale"
  {
    LowerExample("Summer Sale!");
    TrimExample();
    CollapseExample("summer sale!");
    StripExample();
  }

  /** A string that lower-cases to a token sanitizes to that token. */
  lemma SanitizeLowersToToken(s: string)
    requires IsToken(ToLower(s))
    ensures SanitizeParam(s) == ToLower(s)
  {
    var l := ToLower(s);
    TokenHasNoSpace(l);
    TrimFixesSpaceFree(l);
    CollapseFixesSpaceFree(l);
    StripFixesTokens(l);
  }

  /** A capitalised word sanitizes to the same word in lower case. */
  lemma SanitizeCapitalized(v: string, u: char, w: string)
    requires v == [u] + w && 'A' <= u <= 'Z' && IsToken(w)
    ensures SanitizeParam(v) == [(u as int + 32) as char] + w
  {
    ToLowerWord(u, w);
    SanitizeLowersToToken(v);
  }

  lemma SanitizeGoogle()
    ensures SanitizeParam("Google") == "google"
  {
    SanitizeCapitalized("Google", 'G', "oogle");
  }

  lemma SanitizeCpc()
    ensures SanitizeParam("CPC") == "cpc"
  {
    var v := "CPC";
    assert v == ['C'] + ['P'] + ['C'];
    ToLowerAppend(['C'] + ['P'], ['C']);
    ToLowerAppend(['C'], ['P']);
    SanitizeLowersToToken(v);
  }
}

=== FILE: search_params.dfy ===
/** The query of a URL as the ordered list of name-value pairs that a
    `URLSearchParams` object holds, with its `get` and `set` operations as
    section 6.2 of the WHATWG URL Standard defines them. */
module SearchParams {
  import opened Optional

  type Pair = (string, string)

  /** The names of the pairs, in list order. */
  function Names(q: seq<Pair>): (r: seq<string>)
    ensures |r| == |q|
    ensures forall i :: 0 <= i < |q| ==> r[i] == q[i].0
  {
    seq(|q|, i requires 0 <= i < |q| => q[i].0)
  }

  /** `get(name)`: the value of the first pair whose name is `name`, or none
      (JavaScript's `null`) when there is no such pair. */
  function Get(q: seq<Pair>, name: string): Option<string> {
    if q == [] then None
    else if q[0].0 == name then Some(q[0].1)
    else Get(q[1..], name)
  }

  /** The list with every pair named `name` removed, the rest in order. */
  function Without(q: seq<Pair>, name: string): (r: seq<Pair>)
    ensures name !in Names(r)
    ensures |r| <= |q|
  {
    if q == [] then []
    else if q[0].0 == name then Without(q[1..], name)
    else
      assert Names([q[0]] + Without(q[1..], name)) == [q[0].0] + Names(Without(q[1..], name));
      [q[0]] + Without(q[1..], name)
  }

  /** The list with the first pair named `name` given the value `value` and
      every later pair of that name removed. */
  function ReplaceFirst(q: seq<Pair>, name: string, value: string): seq<Pair>
    requires name in Names(q)
  {
    if q[0].0 == name then [(name, value)] + Without(q[1..], name)
    else
      assert Names(q) == [q[0].0] + Names(q[1..]);
      [q[0]] + ReplaceFirst(q[1..], name, value)
  }

  /** `set(name, value)`: if some pair is named `name`, the first such pair
      takes the value and the others are removed; otherwise the pair is
      appended. Afterwards exactly one pair has that name, it holds `value`,
      and the pairs of every other name are the same, in the same order. */
  function Set(q: seq<Pair>, name: string, value: string): (r: seq<Pair>)
    ensures Get(r, name) == Some(value)
    ensures Without(r, name) == Without(q, name)
    ensures |r| == |Without(q, name)| + 1
  {
    if name in Names(q) then
      ReplaceFirstSpec(q, name, value);
      ReplaceFirst(q, name, value)
    else
      GetAppendAbsent(q, name, value);
      WithoutAppend(q, [(name, value)], name);
      WithoutAbsent(q, name);
      q + [(name, value)]
  }

  // ---------------------------------------------------------------------
  // Get

  /** `get` returns the value of the FIRST pair with the name: no earlier
      pair has it. */
  lemma {:induction false} GetIsFirstMatch(q: seq<Pair>, name: string) returns (k: nat)
    requires name in Names(q)
    ensures k < |q| && q[k].0 == name && Get(q, name) == Some(q[k].1)
    ensures forall j :: 0 <= j < k ==> q[j].0 != name
  {
    if q[0].0 == name {
      k := 0;
    } else {
      assert Names(q) == [q[0].0] + Names(q[1..]);
      var k' := GetIsFirstMatch(q[1..], name);
      k := k' + 1;
    }
  }

  /** `get` finds nothing exactly when no pair has the name. */
  lemma {:induction false} GetNoneIffAbsent(q: seq<Pair>, name: string)
    ensures Get(q, name).None? <==> name !in Names(q)
  {
    if q != [] {
      assert Names(q) == [q[0].0] + Names(q[1..]);
      GetNoneIffAbsent(q[1..], name);
    }
  }

  lemma {:induction false} GetAppendAbsent(q: seq<Pair>, name: string, value: string)
    requires name !in Names(q)
    ensures Get(q + [(name, value)], name) == Some(value)
  {
    if q != [] {
      assert Names(q) == [q[0].0] + Names(q[1..]);
      assert (q + [(name, value)])[1..] == q[1..] + [(name, value)];
      GetAppendAbsent(q[1..], name, value);
    }
  }

  /** Removing the pairs of one name does not change `get` of another. */
  lemma {:induction false} GetWithout(q: seq<Pair>, name: string, other: string)
    requires other != name
    ensures Get(Without(q, name), other) == Get(q, other)
  {
    if q != [] {
      GetWithout(q[1..], name, other);
    }
  }

  // ---------------------------------------------------------------------
  // Without

  lemma {:induction false} WithoutAppend(a: seq<Pair>, b: seq<Pair>, name: string)
    ensures Without(a + b, name) == Without(a, name) + Without(b, name)
  {
    if a == [] {
      assert a + b == b;
    } else {
      assert (a + b)[0] == a[0] && (a + b)[1..] == a[1..] + b;
      WithoutAppend(a[1..], b, name);
    }
  }

  lemma {:induction false} WithoutAbsent(q: seq<Pair>, name: string)
    requires name !in Names(q)
    ensures Without(q, name) == q
  {
    if q != [] {
      assert Names(q) == [q[0].0] + Names(q[1..]);
      WithoutAbsent(q[1..], name);
    }
  }

  lemma {:induction false} WithoutIdempotent(q: seq<Pair>, name: string)
    ensures Without(Without(q, name), name) == Without(q, name)
  {
    WithoutAbsent(Without(q, name), name);
  }

  // ---------------------------------------------------------------------
  // Set

  lemma {:induction false} ReplaceFirstSpec(q: seq<Pair>, name: string, value: string)
    requires name in Names(q)
    ensures Get(ReplaceFirst(q, name, value), name) == Some(value)
    ensures Without(ReplaceFirst(q, name, value), name) == Without(q, name)
    ensures |ReplaceFirst(q, name, value)| == |Without(q, name)| + 1
  {
    assert Names(q) == [q[0].0] + Names(q[1..]);
    if q[0].0 != name {
      ReplaceFirstSpec(q[1..], name, value);
    } else {
      WithoutIdempotent(q[1..], name);
    }
  }

  /** `set` on a name that is present: everything before the first pair of
      that name is untouched, that pair takes the new value, and after it
      only the pairs of other names remain. */
  lemma {:induction false} SetReplacesFirst(q: seq<Pair>, name: string, value: string, k: nat)
    requires k < |q| && q[k].0 == name
    requires forall j :: 0 <= j < k ==> q[j].0 != name
    ensures Set(q, name, value) == q[..k] + [(name, value)] + Without(q[k + 1..], name)
  {
    assert Names(q)[k] == name;
    ReplaceFirstShape(q, name, value, k);
  }

  lemma {:induction false} ReplaceFirstShape(q: seq<Pair>, name: string, value: string, k: nat)
    requires k < |q| && q[k].0 == name
    requires forall j :: 0 <= j < k ==> q[j].0 != name
    ensures name in Names(q)
    ensures ReplaceFirst(q, name, value) == q[..k] + [(name, value)] + Without(q[k + 1..], name)
  {
    assert Names(q)[k] == name;
    if k == 0 {
      assert q[..0] == [];
    } else {
      var tail := q[1..];
      assert tail[k - 1] == q[k];
      ReplaceFirstShape(tail, name, value, k - 1);
      assert Names(q) == [q[0].0] + Names(tail);
      var shape := tail[..k - 1] + [(name, value)] + Without(tail[k..], name);
      assert ReplaceFirst(q, name, value) == [q[0]] + shape;
      assert tail[k..] == q[k + 1..];
      assert [q[0]] + tail[..k - 1] == q[..k];
    }
  }

  /** `set` on a name that is absent appends the pair at the end. */
  lemma SetAppendsWhenAbsent(q: seq<Pair>, name: string, value: string)
    requires name !in Names(q)
    ensures Set(q, name, value) == q + [(name, value)]
  {
  }

  /** `set` of one name does not change `get` of any other name. */
  lemma SetKeepsOtherNames(q: seq<Pair>, name: string, value: string, other: string)
    requires other != name
    ensures Get(Set(q, name, value), other) == Get(q, other)
  {
    GetWithout(Set(q, name, value), name, other);
    GetWithout(q, name, other);
  }

  // ---------------------------------------------------------------------
  // How many pairs carry a name

  /** The number of pairs named `name`. */
  function Occurrences(q: seq<Pair>, name: string): nat {
    if q == [] then 0
    else (if q[0].0 == name then 1 else 0) + Occurrences(q[1..], name)
  }

  /** Removing a name removes exactly its occurrences. */
  lemma {:induction false} WithoutRemovesOccurrences(q: seq<Pair>, name: string)
    ensures |q| == |Without(q, name)| + Occurrences(q, name)
    ensures Occurrences(Without(q, name), name) == 0
  {
    if q != [] {
      WithoutRemovesOccurrences(q[1..], name);
      if q[0].0 != name {
        assert Without(q, name)[1..] == Without(q[1..], name);
      }
    }
  }

  /** Removing one name leaves the occurrences of every other name. */
  lemma {:induction false} WithoutKeepsOccurrences(q: seq<Pair>, name: string, other: string)
    requires other != name
    ensures Occurrences(Without(q, name), other) == Occurrences(q, other)
  {
    if q != [] {
      WithoutKeepsOccurrences(q[1..], name, other);
      if q[0].0 != name {
        assert Without(q, name)[1..] == Without(q[1..], name);
      }
    }
  }

  /** After `set`, exactly one pair has the name, and every other name
      occurs as often as before. */
  lemma SetOccurrences(q: seq<Pair>, name: string, value: string, other: string)
    requires other != name
    ensures Occurrences(Set(q, name, value), name) == 1
    ensures Occurrences(Set(q, name, value), other) == Occurrences(q, other)
  {
    var r := Set(q, name, value);
    WithoutRemovesOccurrences(r, name);
    WithoutKeepsOccurrences(r, name, other);
    WithoutKeepsOccurrences(q, name, other);
  }

  // ---------------------------------------------------------------------
  // Pairs outside a set of names

  /** The pairs whose name is not in `names`, in list order. */
  function Outside(q: seq<Pair>, names: set<string>): (r: seq<Pair>)
    ensures forall i :: 0 <= i < |r| ==> r[i].0 !in names
  {
    if q == [] then []
    else if q[0].0 in names then Outside(q[1..], names)
    else [q[0]] + Outside(q[1..], names)
  }

  lemma {:induction false} OutsideWithout(q: seq<Pair>, name: string, names: set<string>)
    requires name in names
    ensures Outside(Without(q, name), names) == Outside(q, names)
  {
    if q != [] {
      OutsideWithout(q[1..], name, names);
    }
  }

  /** Setting a name of `names` leaves the pairs outside `names` exactly as
      they were, in the same order. */
  lemma SetKeepsOutside(q: seq<Pair>, name: string, value: string, names: set<string>)
    requires name in names
    ensures Outside(Set(q, name, value), names) == Outside(q, names)
  {
    OutsideWithout(Set(q, name, value), name, names);
    OutsideWithout(q, name, names);
  }
}

=== FILE: templates.dfy ===
/** The quick-fill templates of the UTM builder: each sets the source and the
    medium fields to a fixed value. */
module Templates {
  import opened Sanitize

  datatype Template = Template(name: string, source: string, medium: string, campaign: string)

  /** The eight templates offered by the page, in display order. */
  const All: seq<Template> := [
    Template("Google Ads", "google", "cpc", ""),
    Template("Facebook Ads", "facebook", "paid_social", ""),
    Template("Instagram", "instagram", "social", ""),
    Template("Newsletter", "newsletter", "email", ""),
    Template("LinkedIn", "linkedin", "social", ""),
    Template("Twitter/X", "twitter", "social", ""),
    Template("TikTok Ads", "tiktok", "paid_social", ""),
    Template("Affiliate", "affiliate", "referral", "")
  ]

  /** Every template value is already a token, so the sanitizer leaves the
      source and the medium a template fills in exactly as they are. */
  lemma TemplatesAreFixedPoints()
    ensures forall i :: 0 <= i < |All| ==>
      SanitizeParam(All[i].source) == All[i].source && SanitizeParam(All[i].medium) == All[i].medium
  {
    SourcesAreTokens();
    MediaAreTokens();
    forall i | 0 <= i < |All|
      ensures SanitizeParam(All[i].source) == All[i].source
      ensures SanitizeParam(All[i].medium) == All[i].medium
    {
      SanitizeFixesTokens(All[i].source);
      SanitizeFixesTokens(All[i].medium);
    }
  }

  lemma SourcesAreTokens()
    ensures forall i :: 0 <= i < |All| ==> IsToken(All[i].source)
  {
    forall i | 0 <= i < |All|
      ensures IsToken(All[i].source)
    {
      if i < 4 { FirstSources(i); } else { LastSources(i); }
    }
  }

  lemma FirstSources(i: int)
    requires 0 <= i < 4
    ensures IsToken(All[i].source)
  {
    assert IsToken("google") && IsToken("facebook") && IsToken("instagram") && IsToken("newsletter");
  }

  lemma LastSources(i: int)
    requires 4 <= i < 8
    ensures IsToken(All[i].source)
  {
    assert IsToken("linkedin") && IsToken("twitter") && IsToken("tiktok") && IsToken("affiliate");
  }

  lemma MediaAreTokens()
    ensures forall i :: 0 <= i < |All| ==> IsToken(All[i].medium)
  {
    assert IsToken("cpc") && IsToken("paid_social") && IsToken("social") && IsToken("email");
    assert IsToken("referral");
  }
}

=== FILE: urls.dfy ===
/** The parts of a parsed URL the UTM builder reads, and the scheme rule it
    applies before parsing a destination typed by the user. Parsing and
    serialization themselves are not modelled: every operation that needs
    them takes them as parameters. */
module Urls {
  import opened Optional
  import opened SearchParams

  /** A parsed URL as the builder sees it.
      - `origin` is what the `origin` getter returns. For http and https it
        is the scheme, host and port; for any other scheme it is "null".
      - `pathname` is the path.
      - `query` is the list of pairs `searchParams` holds.
      The builder never reads the other parts, but the serialization writes
      them:
      - `schemeAndHost` is the scheme, host and port as written, whatever
        the scheme;
      - `credentials` is the `username` and `password`;
      - `hash` is the fragment. */
  datatype Url = Url(origin: string, schemeAndHost: string, pathname: string, query: seq<Pair>,
                     credentials: string, hash: string)

  /** `new URL(s)`: a parsed URL, or none where the constructor throws. */
  type Parser = string -> Option<Url>

  /** `url.toString()`. */
  type Serializer = Url -> string

  /** Parsing the serialization of `u` gives `u` back. */
  predicate ReadsBack(parse: Parser, serialize: Serializer, u: Url) {
    parse(serialize(u)) == Some(u)
  }

  /** `s.startsWith(prefix)`. */
  predicate StartsWith(s: string, prefix: string) {
    |prefix| <= |s| && s[..|prefix|] == prefix
  }

  /** The string both `validateUrl` and `generateUrl` hand to the URL parser:
      the input itself when it starts with the literal "http", otherwise the
      input behind "https://". The result always starts with "http", ends
      with the input, and differs from the input exactly when the prefix was
      added. */
  function WithScheme(s: string): (r: string)
    ensures StartsWith(r, "http")
    ensures |s| <= |r| && r[|r| - |s|..] == s
    ensures r == s <==> StartsWith(s, "http")
  {
    if StartsWith(s, "http") then s else "https://" + s
  }

  /** Applying the scheme rule a second time changes nothing. */
  lemma WithSchemeIdempotent(s: string)
    ensures WithScheme(WithScheme(s)) == WithScheme(s)
  {
  }
}
